=== FILE: README.md ===
# Catalyst JSON parser and tree printer, modelled in Dafny

Catalyst reads a JSON document with a hand-written recursive-descent parser.
The parser works with one lexeme of lookahead and builds a tree of strings,
lists and maps. A printer then writes that tree out as indented lines. This
project models both parts and proves properties about them.

- `lexing.dfy` (module `Lexing`) holds the scanner's side of the parser:
  - the token kinds and their display strings;
  - the scanner's output, abstracted as a finite sequence of lexemes followed
    by an end-of-input lexeme that repeats forever;
  - what the scanner guarantees about each lexeme (`WellFormed`);
  - the syntax-error record and its message
    `expected X but found Y [line L, column C]`.
- `grammar.dfy` (module `Grammar`) has one function per grammar production.
  Each takes the index of the lookahead lexeme and answers either the value
  built with the index of the next lookahead, or the first syntax error. It
  also proves lemmas about the grammar:
  - lists are never empty;
  - `[]` is rejected and `{}` is accepted;
  - a trailing comma is rejected;
  - a key given twice takes its last value;
  - a document must end after its list or map.
- `parser.dfy` (module `JsonParser`) is the parser object. It holds the
  lookahead token and the count of lexemes delivered so far. It has one
  method per production of the source. Each method is proved to compute
  what the grammar function for the same production specifies. On success
  it gives the same value and leaves the lookahead at the same index. On
  failure it gives the same error.
- `extractor.dfy` (module `Extractor`) is the printer. It prints one line per
  map key and one per scalar:
  - the indent is four spaces per level;
  - each backslash-n pair is removed and the text is then trimmed;
  - map values go one level deeper, list elements stay at the list's level.

  The printer is proved equal to formatting a flat outline of the tree. That
  gives the exact indentation of every line. Two further facts are proved on
  their own:
  - the number of lines it prints, one per key and one per scalar;
  - that removing backslash-n pairs is not idempotent.
- `roundtrip.dfy` (module `RoundTrip`) writes a printer tree out as the tokens
  the grammar expects. It proves that parsing those tokens gives back the
  tree's value. For maps, "the tree's value" means the entries are put into
  the map in order. Input left after the list or map is rejected,
  expecting `EOF`. The converse is proved too: every lexeme sequence that the
  parser accepts is exactly the tokens of some list or map tree, and the
  parsed value is that tree's value. So a parsed list is `[`, its elements
  separated by commas, then `]`, with exactly as many values as elements.

The code is narrower than a general JSON parser in three places, and the
model follows the code:

- The code's token kinds are only `{ } [ ] : ,`, a string and end of file.
  It has no number, `true`, `false` or `null` tokens.
- The code's grammar requires at least one element in a list, so `[]` is a
  syntax error (`Grammar.EmptyListRejected`). Empty objects are accepted.
- `restOfList` and `moreEntries` are tail-recursive methods, not loops. The
  model keeps them recursive.

## Model

| member | source | states |
|---|---|---|
| Lexing.Display | backend/src/org/catalyst/json/JSONParser.java:14-52 | The display string is "string" exactly for the string token and "end of file" exactly for end of input. It is a single character exactly for the punctuation kinds. |
| Lexing.DisplayInjective | backend/src/org/catalyst/json/JSONParser.java:14-52 | Two kinds with the same display string are the same kind, so an error message names the expected kind unambiguously. |
| Lexing.TokenStream.At | backend/src/org/catalyst/json/JSONParser.java:62-74 | A request past the last lexeme yields the end-of-input kind every time. Earlier requests yield the lexemes in order. |
| Lexing.Decimal | backend/src/org/catalyst/json/JSONParser.java:103-107 | `%d` renders a number as a non-empty string of digits whose value is the number, with no leading zero: only "0" itself starts with `0`. |
| Lexing.ScannedAt | backend/src/org/catalyst/json/JSONParser.java:62-74 | In a stream the scanner produced, a request yields the end-of-input kind exactly when it is past the last lexeme. |
| Lexing.SyntaxMessage | backend/src/org/catalyst/json/JSONParser.java:98-101 | The "expected E but found T" part of `syntaxException(String)`. Its text is stated by `Lexing.Message`. |
| Lexing.PositionedMessage | backend/src/org/catalyst/json/JSONParser.java:103-107 | `semanticException`: the message followed by " [line L, column C]". Its text is stated by `Lexing.Message`. |
| Lexing.Message | backend/src/org/catalyst/json/JSONParser.java:98-107 | The error message is "expected E but found T [line L, column C]", with the found text and position of the lookahead lexeme. |
| Grammar.Expect | backend/src/org/catalyst/json/JSONParser.java:93-101 | The error names what was expected and carries the lookahead lexeme's text, line and column. Its message is stated by `Grammar.ExpectMessage`. |
| Grammar.ExpectMessage | backend/src/org/catalyst/json/JSONParser.java:93-107 | The message of a syntax error is "expected E but found T [line L, column C]", with the lookahead's text and position. |
| Grammar.MatchAt | backend/src/org/catalyst/json/JSONParser.java:109-119 | `match`, over the lookahead index. Its behaviour is stated by `Grammar.MatchAtMeaning`. |
| Grammar.MatchAtMeaning | backend/src/org/catalyst/json/JSONParser.java:109-119 | `match(t)` succeeds exactly when the lookahead has kind t, and then consumes exactly one lexeme. Otherwise it fails naming t's display string at the lookahead. |
| Grammar.GetMatchAt | backend/src/org/catalyst/json/JSONParser.java:121-134 | `getMatch`, over the lookahead index. Its behaviour is stated by `Grammar.GetMatchAtMeaning`. |
| Grammar.GetMatchAtMeaning | backend/src/org/catalyst/json/JSONParser.java:121-134 | `getMatch(t)` succeeds or fails exactly as `match(t)` does, with the same error. On success it also answers the consumed lexeme's text. |
| Grammar.TryMatchAt | backend/src/org/catalyst/json/JSONParser.java:136-153 | `tryMatch`, over the lookahead index. Its behaviour is stated by `Grammar.TryMatchAtMeaning`. |
| Grammar.TryMatchAtMeaning | backend/src/org/catalyst/json/JSONParser.java:136-153 | `tryMatch(t)` never fails. It matches exactly when `match(t)` would succeed, consuming one lexeme and answering its text. Otherwise it consumes nothing. |
| Grammar.Strip | backend/src/org/catalyst/json/JSONParser.java:240-246 | `substring(1, length - 1)` is two characters shorter and keeps every inner character in place. |
| Grammar.ParseValue | backend/src/org/catalyst/json/JSONParser.java:238-258 | A successful value consumes at least one lexeme and never reads past the lexemes. |
| Grammar.ParseList | backend/src/org/catalyst/json/JSONParser.java:205-218 | A successful list consumes at least one lexeme and ends within the input. |
| Grammar.ParseRest | backend/src/org/catalyst/json/JSONParser.java:220-236 | A successful rest of a list consumes at least one lexeme and ends within the input. `Grammar.RestEndsAtBracket` shows the last one is `]`. |
| Grammar.ParseObject | backend/src/org/catalyst/json/JSONParser.java:260-271 | A successful object consumes at least one lexeme and ends within the input. |
| Grammar.ParseEntries | backend/src/org/catalyst/json/JSONParser.java:273-283 | The entries either consume nothing or advance within the input. |
| Grammar.ParseMoreEntries | backend/src/org/catalyst/json/JSONParser.java:285-295 | The further entries either consume nothing or advance within the input. |
| Grammar.ParseEntry | backend/src/org/catalyst/json/JSONParser.java:297-309 | A successful entry consumes at least one lexeme and ends within the input. |
| Grammar.ParseStart | backend/src/org/catalyst/json/JSONParser.java:191-203 | A successful start production consumes at least one lexeme and ends within the input. |
| Grammar.ParseFrom | backend/src/org/catalyst/json/JSONParser.java:78-91 | `parse` from a given lookahead index. Its behaviour is stated by `Grammar.DocumentNeedsEnd`. |
| Grammar.ParseDocument | backend/src/org/catalyst/json/JSONParser.java:78-91 | `parse` on a fresh parser. Its behaviour is stated by `Grammar.DocumentShape`, `Grammar.DocumentNeedsEnd`, `RoundTrip.DocumentRoundTrip` and `RoundTrip.DocumentAccepted`. |
| Grammar.DocumentShape | backend/src/org/catalyst/json/JSONParser.java:78-91 | A parsed document is a list or a map, never a bare string. Empty input fails expecting `{`. |
| Grammar.Put | backend/src/org/catalyst/json/JSONParser.java:297-309 | The repeated `objectMap.put`. Its behaviour is stated by `Grammar.PutKeys`, `Grammar.PutLastWins` and `Grammar.PutKeeps`. |
| Grammar.PutKeys | backend/src/org/catalyst/json/JSONParser.java:297-309 | Putting the entries one after the other yields exactly the old keys plus the keys of the entries. |
| Grammar.PutLastWins | backend/src/org/catalyst/json/JSONParser.java:297-309 | If no later entry repeats a key, the map holds that key with this entry's value: last write wins. |
| Grammar.PutKeeps | backend/src/org/catalyst/json/JSONParser.java:297-309 | A key that no entry names keeps its old value. |
| Grammar.RestEndsAtBracket | backend/src/org/catalyst/json/JSONParser.java:220-236 | A successful rest of a list stops right after a ']'. |
| Grammar.ListNonEmpty | backend/src/org/catalyst/json/JSONParser.java:205-218 | A parsed list has at least one element and ends with ']'. (`RoundTrip.ListAccepted` gives the full shape of an accepted list.) |
| Grammar.EmptyListRejected | backend/src/org/catalyst/json/JSONParser.java:238-258 | `[` directly followed by `]` fails. Both the list and the enclosing value report `expected [ but found ]` at the `]`. |
| Grammar.EmptyObjectAccepted | backend/src/org/catalyst/json/JSONParser.java:260-283 | `{` directly followed by `}` is the empty map, and parsing continues after the `}`. |
| Grammar.EntriesNeedComma | backend/src/org/catalyst/json/JSONParser.java:285-295 | Without a comma no further entry is read and nothing is consumed. |
| Grammar.TrailingCommaRejected | backend/src/org/catalyst/json/JSONParser.java:285-309 | A comma followed by `}` fails, expecting a string. |
| Grammar.DocumentNeedsEnd | backend/src/org/catalyst/json/JSONParser.java:78-91 | A document parses exactly when a start production parses and end of input follows it. Otherwise the failure expects "EOF" at the next lexeme, and on success the value is the start production's value. |
| JsonParser.JsonParser.constructor | backend/src/org/catalyst/json/JSONParser.java:54-60 | A new parser reads the given scanner and has not yet requested a lexeme. |
| JsonParser.JsonParser.Next | backend/src/org/catalyst/json/JSONParser.java:62-74 | Each request returns the kind of the next lexeme and counts one more lexeme delivered. |
| JsonParser.JsonParser.SyntaxException | backend/src/org/catalyst/json/JSONParser.java:93-101 | The error carries the expected string and the text, line and column of the lookahead lexeme. |
| JsonParser.JsonParser.Match | backend/src/org/catalyst/json/JSONParser.java:109-119 | On a mismatch the call fails, naming the expected kind, and consumes nothing. Otherwise it consumes exactly one lexeme. It passes exactly when the grammar's match does. |
| JsonParser.JsonParser.GetMatch | backend/src/org/catalyst/json/JSONParser.java:121-134 | As match, and on success it answers the text of the lexeme it consumed. |
| JsonParser.JsonParser.TryMatch | backend/src/org/catalyst/json/JSONParser.java:136-153 | On a mismatch it answers no match and consumes nothing. Otherwise it answers the lexeme's text and consumes it. |
| JsonParser.JsonParser.Parse | backend/src/org/catalyst/json/JSONParser.java:78-91 | The result is the grammar's document result from the first lexeme on. On success the lookahead is end of input. |
| JsonParser.JsonParser.Start | backend/src/org/catalyst/json/JSONParser.java:191-203 | Agrees with the grammar's start production: the same value or error, with the lookahead where the grammar stops. |
| JsonParser.JsonParser.List | backend/src/org/catalyst/json/JSONParser.java:205-218 | Agrees with the grammar's list production. |
| JsonParser.JsonParser.RestOfList | backend/src/org/catalyst/json/JSONParser.java:220-236 | The returned list is `objects` followed by the grammar's rest of the list. An error is the grammar's error. |
| JsonParser.JsonParser.EntryValue | backend/src/org/catalyst/json/JSONParser.java:238-258 | Agrees with the grammar's value production, including quote stripping. |
| JsonParser.JsonParser.Object | backend/src/org/catalyst/json/JSONParser.java:260-271 | Agrees with the grammar's object production: a new map with the entries put in order. |
| JsonParser.JsonParser.Entries | backend/src/org/catalyst/json/JSONParser.java:273-283 | The returned map is `objectMap` with the grammar's entries put into it in order. |
| JsonParser.JsonParser.MoreEntries | backend/src/org/catalyst/json/JSONParser.java:285-295 | The returned map is `objectMap` with the grammar's further entries put into it in order. |
| JsonParser.JsonParser.Entry | backend/src/org/catalyst/json/JSONParser.java:297-309 | The returned map is `objectMap` with the grammar's one entry put into it. |
| JsonParser.RestAdvance | backend/src/org/catalyst/json/JSONParser.java:220-236 | After a comma and a value, the rest of the list is that value appended to what was collected, followed by the rest after it. |
| JsonParser.EntriesAdvance | backend/src/org/catalyst/json/JSONParser.java:273-283 | On a string token the entries are the first entry put into the map, then the further entries put after it. |
| JsonParser.MoreEntriesAdvance | backend/src/org/catalyst/json/JSONParser.java:285-295 | After a comma and an entry, the further entries are that entry put into the map, then the ones after it. |
| Extractor.RemoveEscapedNewlines | backend/src/org/catalyst/extract/Extractor.java:10-17 | `SANITIZER.matcher(..).replaceAll(m -> "")`. Its behaviour is stated by `Extractor.RemovalDropsPairs`, `Extractor.NoBackslashUnchanged` and `Extractor.RemovalCanExposePair`. |
| Extractor.TrimLeading | backend/src/org/catalyst/extract/Extractor.java:18 | The front half of `String.trim()`. Its behaviour is stated by `Extractor.TrimLeadingDropsBlankPrefix`. |
| Extractor.TrimTrailing | backend/src/org/catalyst/extract/Extractor.java:18 | The back half of `String.trim()`. Its behaviour is stated by `Extractor.TrimTrailingDropsBlankSuffix`. |
| Extractor.Trim | backend/src/org/catalyst/extract/Extractor.java:18 | `String.trim()`. Its behaviour is stated by `Extractor.TrimEnds`. |
| Extractor.Line | backend/src/org/catalyst/extract/Extractor.java:15-18 | The text the `println` lambda prints for one key or scalar. Its indentation is stated by `Extractor.LineIndentation`. |
| Extractor.Indent | backend/src/org/catalyst/extract/Extractor.java:15-18 | The indent of a level is exactly four spaces per level. |
| Extractor.RemovalDropsPairs | backend/src/org/catalyst/extract/Extractor.java:10-18 | Removing backslash-n pairs never lengthens a text and removes an even number of characters. |
| Extractor.NoBackslashUnchanged | backend/src/org/catalyst/extract/Extractor.java:10-18 | A text without backslashes is printed as it is, before trimming. |
| Extractor.RemovalCanExposePair | backend/src/org/catalyst/extract/Extractor.java:10-18 | The removal is not idempotent: `\\nn` becomes `\n`, which a second removal empties. |
| Extractor.TrimLeadingDropsBlankPrefix | backend/src/org/catalyst/extract/Extractor.java:15-18 | Trimming the front drops only blank characters, all of them. |
| Extractor.TrimTrailingDropsBlankSuffix | backend/src/org/catalyst/extract/Extractor.java:15-18 | Trimming the back drops only blank characters, all of them. |
| Extractor.TrimEnds | backend/src/org/catalyst/extract/Extractor.java:15-18 | A trimmed text has no blank at either end and is no longer than before. A text without blank ends is kept as it is. |
| Extractor.LineIndentation | backend/src/org/catalyst/extract/Extractor.java:15-18 | A printed line starts with exactly four spaces per level. The trimmed text never adds a leading space. |
| Extractor.Use | backend/src/org/catalyst/extract/Extractor.java:12-40 | A tree prints one line per map key plus one per scalar. |
| Extractor.UseAll | backend/src/org/catalyst/extract/Extractor.java:30-32 | A list prints the lines of its elements, as many as their keys and scalars. |
| Extractor.UseMembers | backend/src/org/catalyst/extract/Extractor.java:20-28 | A map prints one line per key plus the lines of its values. |
| Extractor.UseFormatsOutline | backend/src/org/catalyst/extract/Extractor.java:12-40 | Printing a tree at a level is formatting its outline (keys and scalars, each with the number of maps around it) from that level. |
| Extractor.UseAllFormatsOutline | backend/src/org/catalyst/extract/Extractor.java:30-32 | List elements are printed at the list's own level. |
| Extractor.UseMembersFormatsOutline | backend/src/org/catalyst/extract/Extractor.java:20-28 | A map's keys are printed at its level and its values one level deeper. |
| Extractor.LinesIndented | backend/src/org/catalyst/extract/Extractor.java:12-40 | Every printed line starts with exactly four spaces per level, counting the start level plus the maps that enclose it. |
| Extractor.Extract | backend/src/org/catalyst/extract/Extractor.java:42-52 | `extract` prints the outline from level 0, one line per key and per scalar. |
| RoundTrip.StripQuote | backend/src/org/catalyst/json/JSONParser.java:240-246 | Stripping a quoted text gives back the text. |
| RoundTrip.ValueRoundTrip | backend/src/org/catalyst/json/JSONParser.java:238-258 | A value's tokens parse to the value and stop right after its last token. |
| RoundTrip.ListRoundTrip | backend/src/org/catalyst/json/JSONParser.java:205-218 | A non-empty list's tokens parse to its elements' values in order. |
| RoundTrip.ListCons | backend/src/org/catalyst/json/JSONParser.java:205-218 | `[`, the first element and the rest parse to the list's values, ending after its `]`. |
| RoundTrip.RestRoundTrip | backend/src/org/catalyst/json/JSONParser.java:220-236 | The comma-separated further elements and the `]` parse to those elements' values. |
| RoundTrip.RestCons | backend/src/org/catalyst/json/JSONParser.java:220-236 | A comma, an element and the rest parse to that element's value followed by the rest. |
| RoundTrip.ObjectRoundTrip | backend/src/org/catalyst/json/JSONParser.java:260-271 | A map's tokens parse to the map made by putting its entries in order. |
| RoundTrip.EntriesRoundTrip | backend/src/org/catalyst/json/JSONParser.java:273-283 | A map's entries parse to its key/value pairs in order and stop at its `}`. |
| RoundTrip.MoreRoundTrip | backend/src/org/catalyst/json/JSONParser.java:285-295 | The comma-separated further entries parse to their pairs in order and stop at the `}`. |
| RoundTrip.MoreCons | backend/src/org/catalyst/json/JSONParser.java:285-295 | A comma, an entry and the further entries parse to that pair followed by the others. |
| RoundTrip.EntryRoundTrip | backend/src/org/catalyst/json/JSONParser.java:297-309 | A quoted key, `:` and a value parse to the key and the value. |
| RoundTrip.ObjectKeys | backend/src/org/catalyst/json/JSONParser.java:297-309 | The parsed map has exactly the keys the map writes. |
| RoundTrip.ObjectLastWins | backend/src/org/catalyst/json/JSONParser.java:297-309 | A key written more than once takes the value of its last occurrence. |
| RoundTrip.DocumentRoundTrip | backend/src/org/catalyst/json/JSONParser.java:78-91 | A document that is exactly a list's or map's tokens parses to its value. |
| RoundTrip.TrailingInputRejected | backend/src/org/catalyst/json/JSONParser.java:78-91 | Any lexeme left after a complete list or map makes the parse fail, expecting "EOF" at that lexeme. |
| RoundTrip.StartRoundTrip | backend/src/org/catalyst/json/JSONParser.java:191-203 | The start production on a list's or map's tokens gives its value and stops after its last token. |
| RoundTrip.QuoteStrip | backend/src/org/catalyst/json/JSONParser.java:240-246 | A text with a quote at both ends is the quoted form of its stripped text. |
| RoundTrip.ValueAccepted | backend/src/org/catalyst/json/JSONParser.java:238-258 | Every accepted value is exactly the tokens of some tree. The parsed value is that tree's value, and parsing stops right after the tree's last token. |
| RoundTrip.ListAccepted | backend/src/org/catalyst/json/JSONParser.java:205-218 | Every accepted list is exactly the tokens of a non-empty list tree. It has as many values as the tree has elements. |
| RoundTrip.RestAccepted | backend/src/org/catalyst/json/JSONParser.java:220-236 | An accepted rest of a list is elements each after a comma, then `]`. It parses to their values in order. |
| RoundTrip.ObjectAccepted | backend/src/org/catalyst/json/JSONParser.java:260-271 | Every accepted object is exactly the tokens of a map tree. It parses to the map made by putting that tree's entries in order. |
| RoundTrip.EntriesAccepted | backend/src/org/catalyst/json/JSONParser.java:273-283 | Accepted entries are the tokens of zero or more entries separated by commas. They parse to their pairs in order. |
| RoundTrip.MoreAccepted | backend/src/org/catalyst/json/JSONParser.java:285-295 | Accepted further entries are the tokens of entries each after a comma. They parse to their pairs in order. |
| RoundTrip.EntryAccepted | backend/src/org/catalyst/json/JSONParser.java:297-309 | An accepted entry is a quoted key, `:` and the tokens of a value tree. It parses to the stripped key and that tree's value. |
| RoundTrip.DocumentAccepted | backend/src/org/catalyst/json/JSONParser.java:78-91 | Every accepted document is exactly the tokens of a list or map tree, with nothing after them. It parses to that tree's value, which is the converse of `DocumentRoundTrip`. |
| RoundTrip.ScalarDocumentRejected | backend/src/org/catalyst/json/JSONParser.java:191-203 | A document starting with a string fails, expecting `{`, because the start production falls back to an object. |

## Left out

- The scanner `JSONLexer` is not part of this model. Its output is a `TokenStream` parameter.
- The scanner's guarantees are a precondition, `WellFormed`. No end-of-input lexeme comes before the end. A punctuation lexeme's text is the punctuation itself. A string token's text has at least two characters and starts and ends with a quote. The last is what makes `substring(1, length - 1)` safe.
- The scanner's own lexical errors are not modelled.
- The `IOException` that `next` wraps is not modelled. Reading the input is not modelled at all.
- Errors are `Err` results instead of thrown `RuntimeException`s. The first error ends the parse, just as a throw does.
- `ArrayList` and `HashMap` are updated in place in the source. The model passes their contents in and returns the new contents as values, so aliasing is not captured.
- The `null` text of the `NO` record of `tryMatch` has no counterpart: `Probe.NoMatch` carries no text.
- The printer takes a `Node` whose map entries are listed in the order the printer visits them. The iteration order of a Java `HashMap` is not modelled. A parsed map is connected to a `Node` only through `RoundTrip.ToValue`.
- Printing to standard output is not modelled: the printer returns its lines as a sequence. A line is one `println` argument; a line break inside a text is not split.
- The regular-expression engine is not modelled. Its effect is stated as removing each backslash-n pair, left to right and without overlap.
- Java's `trim` compares UTF-16 code units with the space character. Here characters are code points, and `Blank` is "at most a space".
- Line and column numbers are unbounded naturals instead of Java `int`s.
- Grammar.Strip: counts code points, while Java's `substring` and `length` (backend/src/org/catalyst/json/JSONParser.java:246, 301) count UTF-16 code units. Both ends are quote characters, one code unit each, so the stripped text is the same.
- Deeply nested input exhausts the Java call stack (`StackOverflowError`) in the source. The model has no stack bound: every parse ends in `Ok` or `Err`.
- RoundTrip.ValueRoundTrip: covers only trees whose lists are all non-empty (`Proper`), because the grammar has no spelling for an empty list.
- `TestMain.java` and `Demo/src/CreateFile.java` are not part of this model. They read files, check arguments and exit.

=== FILE: extractor.dfy ===
/**
 * The tree printer: one line per map key and one per scalar leaf, each
 * indented by four spaces per enclosing map. Printing is modelled as
 * producing the sequence of lines, and a map is modelled as it is handed to
 * the printer, i.e. as its entries in the order the printer visits them.
 */
module Extractor {

  /** A value as the printer walks it. */
  datatype Node =
    | Leaf(text: string)
    | Items(elements: seq<Node>)
    | Dict(entries: seq<Member>)

  /** One map entry, in visiting order. */
  datatype Member = Member(key: string, value: Node)

  /** The indent of a level: four spaces per level. */
  function Indent(level: nat): (r: string)
    ensures |r| == 4 * level
    ensures forall i :: 0 <= i < |r| ==> r[i] == ' '
  {
    if level == 0 then "" else "    " + Indent(level - 1)
  }

  /** Removes each backslash-n pair, scanning left to right without overlap. */
  function RemoveEscapedNewlines(s: string): string
  {
    if |s| < 2 then s
    else if s[0] == '\\' && s[1] == 'n' then RemoveEscapedNewlines(s[2..])
    else [s[0]] + RemoveEscapedNewlines(s[1..])
  }

  /** The removal only drops characters, and drops them in pairs. */
  lemma {:induction false} RemovalDropsPairs(s: string)
    ensures |RemoveEscapedNewlines(s)| <= |s|
    ensures (|s| - |RemoveEscapedNewlines(s)|) % 2 == 0
  {
    if |s| >= 2 {
      if s[0] == '\\' && s[1] == 'n' {
        RemovalDropsPairs(s[2..]);
      } else {
        RemovalDropsPairs(s[1..]);
      }
    }
  }

  /** A text without backslashes is left as it is. */
  lemma {:induction false} NoBackslashUnchanged(s: string)
    requires forall i :: 0 <= i < |s| ==> s[i] != '\\'
    ensures RemoveEscapedNewlines(s) == s
  {
    if |s| >= 2 {
      NoBackslashUnchanged(s[1..]);
      assert [s[0]] + s[1..] == s;
    }
  }

  /** The removal is not idempotent: removing one pair can bring a new one together. */
  lemma RemovalCanExposePair()
    ensures RemoveEscapedNewlines("\\\\nn") == "\\n"
    ensures RemoveEscapedNewlines(RemoveEscapedNewlines("\\\\nn")) == ""
  {
    assert RemoveEscapedNewlines("nn"[1..]) == "n";
    assert RemoveEscapedNewlines("\\nn"[2..]) == "n";
    assert RemoveEscapedNewlines("\\\\nn"[1..]) == "n";
  }

  /** The characters trimmed off a line's ends: every code point up to the space. */
  predicate Blank(c: char)
  {
    c <= ' '
  }

  /** Drops the leading blank characters. */
  function TrimLeading(s: string): string
  {
    if s != [] && Blank(s[0]) then TrimLeading(s[1..]) else s
  }

  /** Only a blank prefix is dropped, and what is left does not start with a blank. */
  lemma {:induction false} TrimLeadingDropsBlankPrefix(s: string)
    ensures |TrimLeading(s)| <= |s| && TrimLeading(s) == s[|s| - |TrimLeading(s)|..]
    ensures forall k :: 0 <= k < |s| - |TrimLeading(s)| ==> Blank(s[k])
    ensures TrimLeading(s) == [] || !Blank(TrimLeading(s)[0])
  {
    if s != [] && Blank(s[0]) {
      var r := TrimLeading(s[1..]);
      TrimLeadingDropsBlankPrefix(s[1..]);
      assert s[1..][|s| - 1 - |r|..] == s[|s| - |r|..];
      forall k | 1 <= k < |s| - |r| ensures Blank(s[k]) {
        assert s[k] == s[1..][k - 1];
      }
    }
  }

  /** Drops the trailing blank characters. */
  function TrimTrailing(s: string): string
  {
    if s != [] && Blank(s[|s| - 1]) then TrimTrailing(s[..|s| - 1]) else s
  }

  /** Only a blank suffix is dropped, and what is left does not end with a blank. */
  lemma {:induction false} TrimTrailingDropsBlankSuffix(s: string)
    ensures |TrimTrailing(s)| <= |s| && TrimTrailing(s) == s[..|TrimTrailing(s)|]
    ensures forall k :: |TrimTrailing(s)| <= k < |s| ==> Blank(s[k])
    ensures TrimTrailing(s) == [] || !Blank(TrimTrailing(s)[|TrimTrailing(s)| - 1])
  {
    if s != [] && Blank(s[|s| - 1]) {
      var r := TrimTrailing(s[..|s| - 1]);
      TrimTrailingDropsBlankSuffix(s[..|s| - 1]);
      assert s[..|s| - 1][..|r|] == s[..|r|];
      forall k | |r| <= k < |s| - 1 ensures Blank(s[k]) {
        assert s[k] == s[..|s| - 1][k];
      }
    }
  }

  /** Java's `String.trim`. */
  function Trim(s: string): string
  {
    TrimTrailing(TrimLeading(s))
  }

  /** Neither end of a trimmed string is blank, it is no longer, and a string without blank ends is kept. */
  lemma TrimEnds(s: string)
    ensures Trim(s) == [] || (!Blank(Trim(s)[0]) && !Blank(Trim(s)[|Trim(s)| - 1]))
    ensures |Trim(s)| <= |s|
    ensures s == [] || (!Blank(s[0]) && !Blank(s[|s| - 1])) ==> Trim(s) == s
  {
    var lead := TrimLeading(s);
    TrimLeadingDropsBlankPrefix(s);
    TrimTrailingDropsBlankSuffix(lead);
  }

  /** The line printed for a key or a scalar at a level. */
  function Line(level: nat, text: string): string
  {
    Indent(level) + Trim(RemoveEscapedNewlines(text))
  }

  /** How many spaces a line starts with. */
  function LeadingSpaces(s: string): (n: nat)
    ensures n <= |s|
    ensures forall i :: 0 <= i < n ==> s[i] == ' '
    ensures n == |s| || s[n] != ' '
  {
    if s != [] && s[0] == ' ' then 1 + LeadingSpaces(s[1..]) else 0
  }

  /** A printed line starts with exactly four spaces per level: the trimmed text never starts with a space. */
  lemma LineIndentation(level: nat, text: string)
    ensures LeadingSpaces(Line(level, text)) == 4 * level
  {
    var line := Line(level, text);
    var body := Trim(RemoveEscapedNewlines(text));
    TrimEnds(RemoveEscapedNewlines(text));
    assert line[..4 * level] == Indent(level);
    assert |line| == 4 * level || line[4 * level] == body[0];
    SpacesThenStop(line, 4 * level);
  }

  /** A string whose first n characters are spaces, and that then ends or continues with a non-space, has n leading spaces. */
  lemma {:induction false} SpacesThenStop(s: string, n: nat)
    requires n <= |s|
    requires forall i :: 0 <= i < n ==> s[i] == ' '
    requires n == |s| || s[n] != ' '
    ensures LeadingSpaces(s) == n
  {
    if n > 0 {
      SpacesThenStop(s[1..], n - 1);
    }
  }

  /** The number of map keys in a tree. */
  function KeyCount(n: Node): nat
    decreases n, 1
  {
    match n
    case Leaf(_) => 0
    case Items(es) => KeyCountAll(es)
    case Dict(ms) => KeyCountMembers(ms)
  }

  function KeyCountAll(es: seq<Node>): nat
    decreases es
  {
    if es == [] then 0 else KeyCount(es[0]) + KeyCountAll(es[1..])
  }

  function KeyCountMembers(ms: seq<Member>): nat
    decreases ms
  {
    if ms == [] then 0 else 1 + KeyCount(ms[0].value) + KeyCountMembers(ms[1..])
  }

  /** The number of scalar leaves in a tree. */
  function LeafCount(n: Node): nat
    decreases n, 1
  {
    match n
    case Leaf(_) => 1
    case Items(es) => LeafCountAll(es)
    case Dict(ms) => LeafCountMembers(ms)
  }

  function LeafCountAll(es: seq<Node>): nat
    decreases es
  {
    if es == [] then 0 else LeafCount(es[0]) + LeafCountAll(es[1..])
  }

  function LeafCountMembers(ms: seq<Member>): nat
    decreases ms
  {
    if ms == [] then 0 else LeafCount(ms[0].value) + LeafCountMembers(ms[1..])
  }

  /**
   * `use(json, indentLevel)`: a map prints each key at the level followed
   * by its value one level deeper; a list prints its elements at its own
   * level; a scalar prints one line.
   */
  function Use(n: Node, level: nat): (lines: seq<string>)
    ensures |lines| == KeyCount(n) + LeafCount(n)
    decreases n, 1
  {
    match n
    case Leaf(text) => [Line(level, text)]
    case Items(es) => UseAll(es, level)
    case Dict(ms) => UseMembers(ms, level)
  }

  /** The lines of the list elements, each at the list's level. */
  function UseAll(es: seq<Node>, level: nat): (lines: seq<string>)
    ensures |lines| == KeyCountAll(es) + LeafCountAll(es)
    decreases es
  {
    if es == [] then [] else Use(es[0], level) + UseAll(es[1..], level)
  }

  /** The lines of the map entries: each key, then its value one level deeper. */
  function UseMembers(ms: seq<Member>, level: nat): (lines: seq<string>)
    ensures |lines| == KeyCountMembers(ms) + LeafCountMembers(ms)
    decreases ms
  {
    if ms == [] then [] else [Line(level, ms[0].key)] + Use(ms[0].value, level + 1) + UseMembers(ms[1..], level)
  }

  /** A printed line before formatting: how many maps enclose it, and its raw text. */
  datatype Row = Row(depth: nat, text: string)

  /** The rows of a tree in printing order: a key or a scalar per row. */
  function Outline(n: Node): seq<Row>
    decreases n, 1
  {
    match n
    case Leaf(text) => [Row(0, text)]
    case Items(es) => OutlineAll(es)
    case Dict(ms) => OutlineMembers(ms)
  }

  function OutlineAll(es: seq<Node>): seq<Row>
    decreases es
  {
    if es == [] then [] else Outline(es[0]) + OutlineAll(es[1..])
  }

  function OutlineMembers(ms: seq<Member>): seq<Row>
    decreases ms
  {
    if ms == [] then [] else [Row(0, ms[0].key)] + Deeper(Outline(ms[0].value)) + OutlineMembers(ms[1..])
  }

  /** The rows one map further in. */
  function Deeper(rows: seq<Row>): (r: seq<Row>)
    ensures |r| == |rows|
  {
    if rows == [] then [] else [Row(rows[0].depth + 1, rows[0].text)] + Deeper(rows[1..])
  }

  /** The printed lines of rows, starting at a level. */
  function Format(rows: seq<Row>, level: nat): (lines: seq<string>)
    ensures |lines| == |rows|
  {
    if rows == [] then [] else [Line(level + rows[0].depth, rows[0].text)] + Format(rows[1..], level)
  }

  lemma {:induction false} FormatAppend(a: seq<Row>, b: seq<Row>, level: nat)
    ensures Format(a + b, level) == Format(a, level) + Format(b, level)
  {
    if a == [] {
      assert a + b == b;
    } else {
      assert (a + b)[0] == a[0];
      assert (a + b)[1..] == a[1..] + b;
      FormatAppend(a[1..], b, level);
    }
  }

  lemma {:induction false} FormatDeeper(rows: seq<Row>, level: nat)
    ensures Format(Deeper(rows), level) == Format(rows, level + 1)
  {
    if rows != [] {
      FormatDeeper(rows[1..], level);
    }
  }

  /** Printing a tree at a level is formatting its rows from that level. */
  lemma {:induction false} UseFormatsOutline(n: Node, level: nat)
    ensures Use(n, level) == Format(Outline(n), level)
    decreases n, 1
  {
    match n
    case Leaf(_) =>
    case Items(es) => UseAllFormatsOutline(es, level);
    case Dict(ms) => UseMembersFormatsOutline(ms, level);
  }

  lemma {:induction false} UseAllFormatsOutline(es: seq<Node>, level: nat)
    ensures UseAll(es, level) == Format(OutlineAll(es), level)
    decreases es
  {
    if es != [] {
      UseFormatsOutline(es[0], level);
      UseAllFormatsOutline(es[1..], level);
      FormatAppend(Outline(es[0]), OutlineAll(es[1..]), level);
    }
  }

  lemma {:induction false} UseMembersFormatsOutline(ms: seq<Member>, level: nat)
    ensures UseMembers(ms, level) == Format(OutlineMembers(ms), level)
    decreases ms
  {
    if ms != [] {
      var head := [Row(0, ms[0].key)];
      var inner := Deeper(Outline(ms[0].value));
      UseFormatsOutline(ms[0].value, level + 1);
      FormatDeeper(Outline(ms[0].value), level);
      UseMembersFormatsOutline(ms[1..], level);
      FormatAppend(head, inner, level);
      FormatAppend(head + inner, OutlineMembers(ms[1..]), level);
    }
  }

  /** Each formatted row starts with four spaces per level plus four per enclosing map. */
  lemma {:induction false} FormatIndented(rows: seq<Row>, level: nat, i: nat)
    requires i < |rows|
    ensures LeadingSpaces(Format(rows, level)[i]) == 4 * (level + rows[i].depth)
  {
    if i == 0 {
      LineIndentation(level + rows[0].depth, rows[0].text);
    } else {
      FormatIndented(rows[1..], level, i - 1);
    }
  }

  /**
   * Every printed line starts with exactly four spaces per level, where the
   * level of a line is the starting level plus the number of maps around it.
   */
  lemma {:induction false} LinesIndented(n: Node, level: nat, i: nat)
    requires i < |Use(n, level)|
    ensures |Outline(n)| == |Use(n, level)|
    ensures LeadingSpaces(Use(n, level)[i]) == 4 * (level + Outline(n)[i].depth)
  {
    UseFormatsOutline(n, level);
    FormatIndented(Outline(n), level, i);
  }

  /** `extract`: the lines of the whole tree, printed from level 0. */
  function Extract(n: Node): (lines: seq<string>)
    ensures lines == Format(Outline(n), 0)
    ensures |lines| == KeyCount(n) + LeafCount(n)
  {
    UseFormatsOutline(n, 0);
    Use(n, 0)
  }
}

=== FILE: grammar.dfy ===
/**
 * The grammar the parser recognises, written as functions that thread the
 * index of the lookahead lexeme:
 *
 *   start       : list | object
 *   list        : '[' entryValue restOfList
 *   restOfList  : ',' entryValue restOfList | ']'
 *   entryValue  : STRING | object | list
 *   object      : '{' entries '}'
 *   entries     : entry moreEntries | (empty)
 *   moreEntries : ',' entry moreEntries | (empty)
 *   entry       : STRING ':' entryValue
 *
 * Each function answers, for a lookahead at index p, either the value the
 * production builds together with the index of the next lookahead, or the
 * syntax error the first mismatching lexeme raises. The methods of
 * JsonParser.JsonParser are proved to compute exactly these.
 */
module Grammar {
  import opened Lexing

  /** A parsed JSON value: a string with its quotes stripped, a list or a map. */
  datatype Value =
    | VStr(s: string)
    | VList(elements: seq<Value>)
    | VMap(members: map<string, Value>)

  datatype Result<T> = Ok(value: T) | Err(error: SyntaxError)
  {
    predicate IsFailure() { Err? }

    function PropagateFailure<U>(): Result<U>
      requires Err?
    {
      Err(error)
    }

    function Extract(): T
      requires Ok?
    {
      value
    }
  }

  /** A production's result paired with the index of the next lookahead. */
  datatype Parsed<T> = Parsed(value: T, next: nat)

  /** What `tryMatch` answers: no match, or the matched lexeme's text. */
  datatype Probe = NoMatch | Matched(text: string)

  /** The number of lexemes left from index p on; every successful match decreases it. */
  function Rem(ts: TokenStream, p: nat): nat
  {
    if p < |ts.lexemes| then |ts.lexemes| - p else 0
  }

  /** The error raised when `expected` is required but lexeme `found` is the lookahead. */
  function Expect(expected: string, found: Lexeme): SyntaxError
  {
    SyntaxError(expected, found.text, found.line, found.column)
  }

  /** `match(t)`: fail naming t, or consume the lookahead. */
  function MatchAt(ts: TokenStream, p: nat, t: Token): Result<nat>
  {
    if ts.At(p).kind != t then Err(Expect(Display(t), ts.At(p))) else Ok(p + 1)
  }

  /** `getMatch(t)`: as `match(t)`, also answering the consumed lexeme's text. */
  function GetMatchAt(ts: TokenStream, p: nat, t: Token): Result<Parsed<string>>
  {
    if ts.At(p).kind != t then Err(Expect(Display(t), ts.At(p))) else Ok(Parsed(ts.At(p).text, p + 1))
  }

  /** `tryMatch(t)`: consume the lookahead only if it has kind t. */
  function TryMatchAt(ts: TokenStream, p: nat, t: Token): Parsed<Probe>
  {
    if ts.At(p).kind != t then Parsed(NoMatch, p) else Parsed(Matched(ts.At(p).text), p + 1)
  }

  /** The text of a string token without its first and last character. */
  function Strip(text: string): (r: string)
    requires |text| >= 2
    ensures |r| == |text| - 2
    ensures forall i :: 0 <= i < |r| ==> r[i] == text[i + 1]
  {
    text[1..|text| - 1]
  }

  /** The lexeme at a string token's index has a text long enough to strip. */
  lemma StringTextLong(ts: TokenStream, p: nat)
    requires WellFormed(ts) && ts.At(p).kind == StringLit
    ensures |ts.At(p).text| >= 2
  {
    ScannedAt(ts, p);
  }

  /** The map built by putting the pairs into m one after the other. */
  function Put(m: map<string, Value>, pairs: seq<(string, Value)>): map<string, Value>
    decreases pairs
  {
    if pairs == [] then m else Put(m[pairs[0].0 := pairs[0].1], pairs[1..])
  }

  /** Putting a non-empty sequence of pairs is putting its first pair, then the others. */
  lemma PutCons(m: map<string, Value>, pair: (string, Value), rest: seq<(string, Value)>)
    ensures Put(m, [pair] + rest) == Put(m[pair.0 := pair.1], rest)
  {
    assert ([pair] + rest)[0] == pair;
    assert ([pair] + rest)[1..] == rest;
  }

  /** `entryValue`: a string token, else an object when the lookahead is '{', else a list. */
  function ParseValue(ts: TokenStream, p: nat): (r: Result<Parsed<Value>>)
    requires WellFormed(ts)
    ensures r.Ok? ==> p < r.value.next <= |ts.lexemes|
    decreases Rem(ts, p), 2
  {
    var probe := TryMatchAt(ts, p, StringLit);
    if probe.value.Matched? then
      StringTextLong(ts, p);
      Ok(Parsed(VStr(Strip(probe.value.text)), probe.next))
    else if ts.At(p).kind == LeftCurly then
      ParseObject(ts, p)
    else
      ParseList(ts, p)
  }

  /** `list`: '[' then one value, then the rest of the list. */
  function ParseList(ts: TokenStream, p: nat): (r: Result<Parsed<Value>>)
    requires WellFormed(ts)
    ensures r.Ok? ==> p < r.value.next <= |ts.lexemes|
    decreases Rem(ts, p), 1
  {
    var afterOpen :- MatchAt(ts, p, LeftBracket);
    var first :- ParseValue(ts, afterOpen);
    var rest :- ParseRest(ts, first.next);
    Ok(Parsed(VList([first.value] + rest.value), rest.next))
  }

  /** `restOfList`: the values after the first one, each after a comma, up to and including ']'. */
  function ParseRest(ts: TokenStream, p: nat): (r: Result<Parsed<seq<Value>>>)
    requires WellFormed(ts)
    ensures r.Ok? ==> p < r.value.next <= |ts.lexemes|
    decreases Rem(ts, p), 0
  {
    var probe := TryMatchAt(ts, p, Comma);
    if probe.value.Matched? then
      var element :- ParseValue(ts, probe.next);
      var rest :- ParseRest(ts, element.next);
      Ok(Parsed([element.value] + rest.value, rest.next))
    else
      var afterClose :- MatchAt(ts, p, RightBracket);
      Ok(Parsed([], afterClose))
  }

  /** `object`: '{', the entries, '}'; the map holds the entries put in order. */
  function ParseObject(ts: TokenStream, p: nat): (r: Result<Parsed<Value>>)
    requires WellFormed(ts)
    ensures r.Ok? ==> p < r.value.next <= |ts.lexemes|
    decreases Rem(ts, p), 1
  {
    var afterOpen :- MatchAt(ts, p, LeftCurly);
    var entries :- ParseEntries(ts, afterOpen);
    var afterClose :- MatchAt(ts, entries.next, RightCurly);
    Ok(Parsed(VMap(Put(map[], entries.value)), afterClose))
  }

  /** `entries`: nothing unless the lookahead is a string token, else an entry and the further ones. */
  function ParseEntries(ts: TokenStream, p: nat): (r: Result<Parsed<seq<(string, Value)>>>)
    requires WellFormed(ts)
    ensures r.Ok? ==> r.value.next == p || p < r.value.next <= |ts.lexemes|
    decreases Rem(ts, p), 2
  {
    if ts.At(p).kind == StringLit then
      var first :- ParseEntry(ts, p);
      var more :- ParseMoreEntries(ts, first.next);
      Ok(Parsed([first.value] + more.value, more.next))
    else
      Ok(Parsed([], p))
  }

  /** `moreEntries`: while a comma follows, an entry after it; the entries in source order. */
  function ParseMoreEntries(ts: TokenStream, p: nat): (r: Result<Parsed<seq<(string, Value)>>>)
    requires WellFormed(ts)
    ensures r.Ok? ==> r.value.next == p || p < r.value.next <= |ts.lexemes|
    decreases Rem(ts, p), 0
  {
    var probe := TryMatchAt(ts, p, Comma);
    if probe.value.Matched? then
      var entry :- ParseEntry(ts, probe.next);
      var more :- ParseMoreEntries(ts, entry.next);
      Ok(Parsed([entry.value] + more.value, more.next))
    else
      Ok(Parsed([], p))
  }

  /** `entry`: a string key (quotes stripped), ':', a value. */
  function ParseEntry(ts: TokenStream, p: nat): (r: Result<Parsed<(string, Value)>>)
    requires WellFormed(ts)
    ensures r.Ok? ==> p < r.value.next <= |ts.lexemes|
    decreases Rem(ts, p), 1
  {
    var key :- GetMatchAt(ts, p, StringLit);
    var afterColon :- MatchAt(ts, key.next, Colon);
    var value :- ParseValue(ts, afterColon);
    StringTextLong(ts, p);
    Ok(Parsed((Strip(key.value), value.value), value.next))
  }

  /** `start`: a list when the lookahead is '[', otherwise an object. */
  function ParseStart(ts: TokenStream, p: nat): (r: Result<Parsed<Value>>)
    requires WellFormed(ts)
    ensures r.Ok? ==> p < r.value.next <= |ts.lexemes|
  {
    if ts.At(p).kind == LeftBracket then ParseList(ts, p) else ParseObject(ts, p)
  }

  /**
   * `parse`, started with the scanner about to deliver the lexeme at index p:
   * a start production, then nothing but the end of input.
   */
  function ParseFrom(ts: TokenStream, p: nat): Result<Value>
    requires WellFormed(ts)
  {
    var json :- ParseStart(ts, p);
    if ts.At(json.next).kind != Eof then Err(Expect("EOF", ts.At(json.next))) else Ok(json.value)
  }

  /** `parse` on a fresh parser: from the first lexeme on. */
  function ParseDocument(ts: TokenStream): Result<Value>
    requires WellFormed(ts)
  {
    ParseFrom(ts, 0)
  }

  /** The keys the pairs name. */
  function KeysOf(pairs: seq<(string, Value)>): set<string>
  {
    set i | 0 <= i < |pairs| :: pairs[i].0
  }

  lemma KeysOfCons(pairs: seq<(string, Value)>)
    requires pairs != []
    ensures KeysOf(pairs) == {pairs[0].0} + KeysOf(pairs[1..])
  {
    var rest := pairs[1..];
    forall i | 0 <= i < |pairs| ensures pairs[i].0 in {pairs[0].0} + KeysOf(rest) {
      if i > 0 {
        assert rest[i - 1] == pairs[i];
      }
    }
    forall i | 0 <= i < |rest| ensures rest[i].0 in KeysOf(pairs) {
      assert rest[i] == pairs[i + 1];
    }
  }

  /** The keys after putting are m's keys and the keys of the pairs. */
  lemma {:induction false} PutKeys(m: map<string, Value>, pairs: seq<(string, Value)>)
    ensures Put(m, pairs).Keys == m.Keys + KeysOf(pairs)
    decreases pairs
  {
    if pairs != [] {
      PutKeys(m[pairs[0].0 := pairs[0].1], pairs[1..]);
      KeysOfCons(pairs);
    }
  }

  /** Duplicate keys: last write wins; a key takes the value of its last pair. */
  lemma {:induction false} PutLastWins(m: map<string, Value>, pairs: seq<(string, Value)>, i: nat)
    requires i < |pairs|
    requires forall j :: i < j < |pairs| ==> pairs[j].0 != pairs[i].0
    ensures pairs[i].0 in Put(m, pairs) && Put(m, pairs)[pairs[i].0] == pairs[i].1
    decreases pairs
  {
    var m' := m[pairs[0].0 := pairs[0].1];
    var rest := pairs[1..];
    if i > 0 {
      assert rest[i - 1] == pairs[i];
      forall j | i - 1 < j < |rest| ensures rest[j].0 != rest[i - 1].0 {
        assert rest[j] == pairs[j + 1];
      }
      PutLastWins(m', rest, i - 1);
    } else {
      forall j | 0 <= j < |rest| ensures rest[j].0 != pairs[0].0 {
        assert rest[j] == pairs[j + 1];
      }
      PutKeeps(m', rest, pairs[0].0);
    }
  }

  /** A key that no pair names keeps its value. */
  lemma {:induction false} PutKeeps(m: map<string, Value>, pairs: seq<(string, Value)>, k: string)
    requires k in m
    requires forall i :: 0 <= i < |pairs| ==> pairs[i].0 != k
    ensures k in Put(m, pairs) && Put(m, pairs)[k] == m[k]
    decreases pairs
  {
    if pairs != [] {
      var rest := pairs[1..];
      forall i | 0 <= i < |rest| ensures rest[i].0 != k {
        assert rest[i] == pairs[i + 1];
      }
      PutKeeps(m[pairs[0].0 := pairs[0].1], rest, k);
    }
  }

  /** A successful rest of a list ends with the ']' it consumed. */
  lemma {:induction false} RestEndsAtBracket(ts: TokenStream, p: nat)
    requires WellFormed(ts) && ParseRest(ts, p).Ok?
    ensures ts.At(ParseRest(ts, p).value.next - 1).kind == RightBracket
    decreases Rem(ts, p)
  {
    var probe := TryMatchAt(ts, p, Comma);
    if probe.value.Matched? {
      var element := ParseValue(ts, probe.next).value;
      RestEndsAtBracket(ts, element.next);
    }
  }

  /** Lists are never empty, and a list ends only at a ']'. */
  lemma ListNonEmpty(ts: TokenStream, p: nat)
    requires WellFormed(ts) && ParseList(ts, p).Ok?
    ensures ParseList(ts, p).value.value.VList?
    ensures |ParseList(ts, p).value.value.elements| >= 1
    ensures ts.At(ParseList(ts, p).value.next - 1).kind == RightBracket
  {
    var first := ParseValue(ts, p + 1).value;
    RestEndsAtBracket(ts, first.next);
  }

  /** '[' directly followed by ']' is rejected: a value was required, so a '[' is reported missing. */
  lemma EmptyListRejected(ts: TokenStream, p: nat)
    requires WellFormed(ts)
    requires ts.At(p).kind == LeftBracket && ts.At(p + 1).kind == RightBracket
    ensures ParseList(ts, p) == Err(Expect("[", ts.At(p + 1)))
    ensures ParseValue(ts, p) == Err(Expect("[", ts.At(p + 1)))
  {
    assert ParseList(ts, p + 1) == Err(Expect("[", ts.At(p + 1)));
    assert ParseValue(ts, p + 1) == Err(Expect("[", ts.At(p + 1)));
  }

  /** '{' directly followed by '}' is the empty map. */
  lemma EmptyObjectAccepted(ts: TokenStream, p: nat)
    requires WellFormed(ts)
    requires ts.At(p).kind == LeftCurly && ts.At(p + 1).kind == RightCurly
    ensures ParseObject(ts, p) == Ok(Parsed(VMap(map[]), p + 2))
  {
  }

  /** Entries continue only after a comma: without one, no further entry is read. */
  lemma EntriesNeedComma(ts: TokenStream, p: nat)
    requires WellFormed(ts) && ts.At(p).kind != Comma
    ensures ParseMoreEntries(ts, p) == Ok(Parsed([], p))
  {
  }

  /** A comma must be followed by a string key: a trailing comma before '}' is rejected. */
  lemma TrailingCommaRejected(ts: TokenStream, p: nat)
    requires WellFormed(ts)
    requires ts.At(p).kind == Comma && ts.At(p + 1).kind == RightCurly
    ensures ParseMoreEntries(ts, p) == Err(Expect("string", ts.At(p + 1)))
  {
  }

  /** A document parses exactly when a start production parses and the end of input follows it. */
  lemma DocumentNeedsEnd(ts: TokenStream, p: nat)
    requires WellFormed(ts)
    ensures ParseFrom(ts, p).Ok? <==> ParseStart(ts, p).Ok? && ts.At(ParseStart(ts, p).value.next).kind == Eof
    ensures ParseStart(ts, p).Ok? && ts.At(ParseStart(ts, p).value.next).kind != Eof ==>
              ParseFrom(ts, p) == Err(Expect("EOF", ts.At(ParseStart(ts, p).value.next)))
    ensures ParseFrom(ts, p).Ok? ==> ParseFrom(ts, p).value == ParseStart(ts, p).value.value
  {
  }

  /** `match(t)` consumes the lookahead exactly when it has kind t, and otherwise fails naming t at it. */
  lemma MatchAtMeaning(ts: TokenStream, p: nat, t: Token)
    ensures MatchAt(ts, p, t).Ok? <==> ts.At(p).kind == t
    ensures MatchAt(ts, p, t).Ok? ==> MatchAt(ts, p, t).value == p + 1
    ensures MatchAt(ts, p, t).Err? ==> MatchAt(ts, p, t).error == Expect(Display(t), ts.At(p))
  {
  }

  /** `getMatch(t)` is `match(t)` that also answers the consumed lexeme's text. */
  lemma GetMatchAtMeaning(ts: TokenStream, p: nat, t: Token)
    ensures GetMatchAt(ts, p, t).Ok? <==> MatchAt(ts, p, t).Ok?
    ensures GetMatchAt(ts, p, t).Ok? ==> GetMatchAt(ts, p, t).value == Parsed(ts.At(p).text, MatchAt(ts, p, t).value)
    ensures GetMatchAt(ts, p, t).Err? ==> GetMatchAt(ts, p, t).error == MatchAt(ts, p, t).error
  {
  }

  /** `tryMatch(t)` never fails: it consumes the lookahead exactly when `match(t)` would, else nothing. */
  lemma TryMatchAtMeaning(ts: TokenStream, p: nat, t: Token)
    ensures TryMatchAt(ts, p, t).value.Matched? <==> MatchAt(ts, p, t).Ok?
    ensures TryMatchAt(ts, p, t).value.NoMatch? ==> TryMatchAt(ts, p, t).next == p
    ensures TryMatchAt(ts, p, t).value.Matched? ==>
              TryMatchAt(ts, p, t).next == p + 1 && TryMatchAt(ts, p, t).value.text == ts.At(p).text
  {
  }

  /** The message of `syntaxException`: what was expected, then the lookahead's text and position. */
  lemma ExpectMessage(expected: string, found: Lexeme)
    ensures Message(Expect(expected, found)) == "expected " + expected + " but found " + found.text
              + " [line " + Decimal(found.line) + ", column " + Decimal(found.column) + "]"
  {
  }

  /** A document is a list or a map, never a bare string; empty input fails expecting '{'. */
  lemma DocumentShape(ts: TokenStream)
    requires WellFormed(ts)
    ensures ParseDocument(ts).Ok? ==> ParseDocument(ts).value.VList? || ParseDocument(ts).value.VMap?
    ensures ts.lexemes == [] ==> ParseDocument(ts) == Err(Expect("{", ts.At(0)))
  {
  }
}

=== FILE: lexing.dfy ===
/**
 * The lexical side of the JSON parser: the token kinds the scanner
 * classifies, their display strings (used only in error messages), the
 * scanner's output abstracted as a finite sequence of lexemes, and the
 * syntax-error record with its message format.
 */
module Lexing {

  /** The token kinds of the scanner; `Eof` is the end-of-input kind. */
  datatype Token =
    | LeftCurly
    | RightCurly
    | LeftBracket
    | RightBracket
    | Colon
    | Comma
    | StringLit
    | Eof

  /**
   * The display string of a kind: the punctuation itself, the lower-case
   * kind name for a string token, and "end of file" for the end of input.
   */
  function Display(t: Token): (r: string)
    ensures t == StringLit <==> r == "string"
    ensures t == Eof <==> r == "end of file"
    ensures t != StringLit && t != Eof <==> |r| == 1
  {
    match t
    case LeftCurly => "{"
    case RightCurly => "}"
    case LeftBracket => "["
    case RightBracket => "]"
    case Colon => ":"
    case Comma => ","
    case StringLit => "string"
    case Eof => "end of file"
  }

  /** Different kinds are never confused in an error message. */
  lemma DisplayInjective(a: Token, b: Token)
    ensures Display(a) == Display(b) ==> a == b
  {
  }

  /** One scanner result: its kind, its raw matched text and its position. */
  datatype Lexeme = Lexeme(kind: Token, text: string, line: nat, column: nat)

  /**
   * Everything the scanner will deliver for one input: the lexemes in
   * order, then, for every further request, an end-of-input lexeme whose
   * text and position are those the scanner reports once it is exhausted.
   */
  datatype TokenStream = TokenStream(lexemes: seq<Lexeme>, endText: string, endLine: nat, endColumn: nat)
  {
    /** The lexeme delivered by the (p+1)-th request to the scanner. */
    function At(p: nat): (lx: Lexeme)
      ensures p >= |lexemes| ==> lx.kind == Eof
      ensures p < |lexemes| ==> lx == lexemes[p]
    {
      if p < |lexemes| then lexemes[p] else Lexeme(Eof, endText, endLine, endColumn)
    }
  }

  /**
   * What the scanner delivers as one lexeme: never the end-of-input kind;
   * for a punctuation kind, the punctuation itself; for a string token, a
   * text that starts and ends with a quote character.
   */
  predicate Scanned(lx: Lexeme)
  {
    && lx.kind != Eof
    && (lx.kind == StringLit ==> |lx.text| >= 2 && lx.text[0] == '"' && lx.text[|lx.text| - 1] == '"')
    && (lx.kind != StringLit ==> lx.text == Display(lx.kind))
  }

  /** The scanner's guarantee for every lexeme before the end of input. */
  ghost predicate WellFormed(ts: TokenStream)
  {
    forall i {:trigger Scanned(ts.lexemes[i])} :: 0 <= i < |ts.lexemes| ==> Scanned(ts.lexemes[i])
  }

  /** In a well-formed stream the end-of-input kind comes exactly after the lexemes. */
  lemma ScannedAt(ts: TokenStream, p: nat)
    requires WellFormed(ts)
    ensures p < |ts.lexemes| <==> ts.At(p).kind != Eof
    ensures p < |ts.lexemes| ==> Scanned(ts.At(p))
  {
    if p < |ts.lexemes| {
      assert Scanned(ts.lexemes[p]);
    }
  }

  /** A syntax error: what was expected, the raw text found instead, and where. */
  datatype SyntaxError = SyntaxError(expected: string, found: string, line: nat, column: nat)

  function DigitChar(d: nat): char
    requires d < 10
  {
    "0123456789"[d]
  }

  /** The value of a string of decimal digits. */
  function DigitsValue(s: string): nat
    requires forall i :: 0 <= i < |s| ==> '0' <= s[i] <= '9'
  {
    if s == [] then 0 else 10 * DigitsValue(s[..|s| - 1]) + (s[|s| - 1] as int - '0' as int)
  }

  /** The decimal rendering of `%d` for a non-negative number. */
  function Decimal(n: nat): (r: string)
    ensures |r| >= 1
    ensures forall i :: 0 <= i < |r| ==> '0' <= r[i] <= '9'
    ensures DigitsValue(r) == n
    ensures r[0] == '0' ==> r == "0"
  {
    if n < 10 then [DigitChar(n)] else Decimal(n / 10) + [DigitChar(n % 10)]
  }

  /** The "expected ... but found ..." part of a syntax error. */
  function SyntaxMessage(expected: string, found: string): string
  {
    "expected " + expected + " but found " + found
  }

  /** A message followed by the scanner position, as in "... [line 2, column 7]". */
  function PositionedMessage(message: string, line: nat, column: nat): string
  {
    message + " [line " + Decimal(line) + ", column " + Decimal(column) + "]"
  }

  /** The message a syntax error carries. */
  function Message(e: SyntaxError): (r: string)
    ensures r == "expected " + e.expected + " but found " + e.found
                 + " [line " + Decimal(e.line) + ", column " + Decimal(e.column) + "]"
  {
    PositionedMessage(SyntaxMessage(e.expected, e.found), e.line, e.column)
  }
}

=== FILE: parser.dfy ===
/**
 * The parser object: the lookahead token it keeps between calls, the scanner
 * it pulls lexemes from, and one method per grammar production. Every method
 * is proved to compute what the matching function of module Grammar
 * specifies, from the lookahead it starts at.
 */
module JsonParser {
  import opened Lexing
  import opened Grammar

  /** The outcome of `match`: it either consumed the lookahead or raised an error. */
  datatype Outcome = Pass | Fail(error: SyntaxError)
  {
    predicate IsFailure() { Fail? }

    function PropagateFailure<U>(): Result<U>
      requires Fail?
    {
      Err(error)
    }
  }

  /** A list parse result with `prefix` in front of the elements it found. */
  function Extend(prefix: seq<Value>, s: Result<Parsed<seq<Value>>>): Result<Parsed<seq<Value>>>
  {
    match s
    case Ok(p) => Ok(Parsed(prefix + p.value, p.next))
    case Err(e) => Err(e)
  }

  /** An entries parse result with its entries put into `m` in order. */
  function Into(m: map<string, Value>, s: Result<Parsed<seq<(string, Value)>>>): Result<Parsed<map<string, Value>>>
  {
    match s
    case Ok(p) => Ok(Parsed(Put(m, p.value), p.next))
    case Err(e) => Err(e)
  }

  /** An entry parse result as a one-entry sequence. */
  function Single(s: Result<Parsed<(string, Value)>>): Result<Parsed<seq<(string, Value)>>>
  {
    match s
    case Ok(p) => Ok(Parsed([p.value], p.next))
    case Err(e) => Err(e)
  }

  /** A comma and a value: the value joins the prefix and the list goes on after it. */
  lemma RestAdvance(ts: TokenStream, p: nat, prefix: seq<Value>, item: Parsed<Value>)
    requires WellFormed(ts) && ts.At(p).kind == Comma && ParseValue(ts, p + 1) == Ok(item)
    ensures Extend(prefix, ParseRest(ts, p)) == Extend(prefix + [item.value], ParseRest(ts, item.next))
  {
    match ParseRest(ts, item.next)
    case Ok(rest) => assert prefix + ([item.value] + rest.value) == prefix + [item.value] + rest.value;
    case Err(_) =>
  }

  /** Putting one entry, then the further ones, is putting them all. */
  lemma IntoAfterEntry(m: map<string, Value>, entry: (string, Value), more: Result<Parsed<seq<(string, Value)>>>)
    ensures Into(m, Prepend(entry, more)) == Into(Put(m, [entry]), more)
  {
    PutCons(m, entry, []);
    assert [entry] + [] == [entry];
    match more
    case Ok(p) => PutCons(m, entry, p.value);
    case Err(_) =>
  }

  /** On a string token the entries are that entry, put first, then the further ones. */
  lemma EntriesAdvance(ts: TokenStream, p: nat, m: map<string, Value>)
    requires WellFormed(ts) && ts.At(p).kind == StringLit && ParseEntry(ts, p).Ok?
    ensures Into(m, ParseEntries(ts, p))
         == Into(Put(m, [ParseEntry(ts, p).value.value]), ParseMoreEntries(ts, ParseEntry(ts, p).value.next))
  {
    var first := ParseEntry(ts, p).value;
    assert ParseEntries(ts, p) == Prepend(first.value, ParseMoreEntries(ts, first.next));
    IntoAfterEntry(m, first.value, ParseMoreEntries(ts, first.next));
  }

  /** A comma and an entry: the entry is put, then the further ones. */
  lemma MoreEntriesAdvance(ts: TokenStream, p: nat, m: map<string, Value>)
    requires WellFormed(ts) && ts.At(p).kind == Comma && ParseEntry(ts, p + 1).Ok?
    ensures Into(m, ParseMoreEntries(ts, p))
         == Into(Put(m, [ParseEntry(ts, p + 1).value.value]), ParseMoreEntries(ts, ParseEntry(ts, p + 1).value.next))
  {
    var entry := ParseEntry(ts, p + 1).value;
    assert ParseMoreEntries(ts, p) == Prepend(entry.value, ParseMoreEntries(ts, entry.next));
    IntoAfterEntry(m, entry.value, ParseMoreEntries(ts, entry.next));
  }

  /** An entries parse result with one entry in front. */
  function Prepend(entry: (string, Value), s: Result<Parsed<seq<(string, Value)>>>): Result<Parsed<seq<(string, Value)>>>
  {
    match s
    case Ok(p) => Ok(Parsed([entry] + p.value, p.next))
    case Err(e) => Err(e)
  }

  class JsonParser {
    /** What the scanner delivers, in order. */
    const stream: TokenStream
    /** How many lexemes the scanner has delivered so far. */
    var lexed: nat
    /** The kind of the lexeme delivered last. */
    var lookAheadToken: Token

    ghost predicate Valid()
      reads this
    {
      WellFormed(stream) && (lexed > 0 ==> lookAheadToken == stream.At(lexed - 1).kind)
    }

    /** Valid, with a lookahead read. */
    ghost predicate Ready()
      reads this
    {
      Valid() && lexed > 0
    }

    /** The index of the lookahead lexeme. */
    function Pos(): nat
      reads this
      requires lexed > 0
    {
      lexed - 1
    }

    /** A method's result agrees with a specification result and, on success, with where the lookahead now is. */
    ghost predicate Agrees<T>(spec: Result<Parsed<T>>, r: Result<T>)
      reads this
      requires lexed > 0
    {
      match spec
      case Ok(p) => r == Ok(p.value) && Pos() == p.next
      case Err(e) => r == Err(e)
    }

    constructor (s: TokenStream)
      requires WellFormed(s)
      ensures Valid() && stream == s && lexed == 0
    {
      stream := s;
      lexed := 0;
      lookAheadToken := Eof;
    }

    /** The scanner's next lexeme kind; past the end of input it is `Eof` every time. */
    method Next() returns (t: Token)
      modifies this`lexed
      ensures lexed == old(lexed) + 1
      ensures t == stream.At(old(lexed)).kind
    {
      t := stream.At(lexed).kind;
      lexed := lexed + 1;
    }

    /** The error naming `expected`, with the text and position of the current lexeme. */
    function SyntaxException(expected: string): (e: SyntaxError)
      reads this
      requires lexed > 0
      ensures e.expected == expected && e.found == stream.At(Pos()).text
      ensures e.line == stream.At(Pos()).line && e.column == stream.At(Pos()).column
    {
      Expect(expected, stream.At(lexed - 1))
    }

    /** `match(t)`: on a mismatch fail naming t and consume nothing; otherwise consume exactly one lexeme. */
    method Match(t: Token) returns (r: Outcome)
      requires Ready()
      modifies this
      ensures Ready()
      ensures old(lookAheadToken) != t ==> r == Fail(Expect(Display(t), stream.At(old(Pos())))) && lexed == old(lexed)
      ensures old(lookAheadToken) == t ==> r == Pass && lexed == old(lexed) + 1
      ensures r == Pass <==> MatchAt(stream, old(Pos()), t) == Ok(Pos())
    {
      if lookAheadToken != t {
        return Fail(SyntaxException(Display(t)));
      }
      lookAheadToken := Next();
      return Pass;
    }

    /** `getMatch(t)`: as `match(t)`, answering the text of the lexeme it consumed. */
    method GetMatch(t: Token) returns (r: Result<string>)
      requires Ready()
      modifies this
      ensures Ready()
      ensures old(lookAheadToken) != t ==> r == Err(Expect(Display(t), stream.At(old(Pos())))) && lexed == old(lexed)
      ensures old(lookAheadToken) == t ==> r == Ok(stream.At(old(Pos())).text) && lexed == old(lexed) + 1
    {
      if lookAheadToken != t {
        return Err(SyntaxException(Display(t)));
      }
      var text := stream.At(lexed - 1).text;
      lookAheadToken := Next();
      return Ok(text);
    }

    /** `tryMatch(t)`: on a mismatch answer no match and consume nothing; otherwise answer the text and consume one lexeme. */
    method TryMatch(t: Token) returns (r: Probe)
      requires Ready()
      modifies this
      ensures Ready()
      ensures old(lookAheadToken) != t ==> r == NoMatch && lexed == old(lexed)
      ensures old(lookAheadToken) == t ==> r == Matched(stream.At(old(Pos())).text) && lexed == old(lexed) + 1
    {
      if lookAheadToken != t {
        return NoMatch;
      }
      var text := stream.At(lexed - 1).text;
      lookAheadToken := Next();
      return Matched(text);
    }

    /**
     * `parse`: read the first lookahead, recognise a start production and
     * require the end of input after it.
     */
    method Parse() returns (r: Result<Value>)
      requires Valid()
      modifies this
      ensures Ready()
      ensures r == ParseFrom(stream, old(lexed))
      ensures r.Ok? ==> lookAheadToken == Eof
    {
      lookAheadToken := Next();
      var json :- Start();
      if lookAheadToken != Eof {
        return Err(SyntaxException("EOF"));
      }
      return Ok(json);
    }

    /** `start`: a list when the lookahead is '[', otherwise an object. */
    method Start() returns (r: Result<Value>)
      requires Ready()
      modifies this
      ensures Ready()
      ensures Agrees(ParseStart(stream, old(Pos())), r)
    {
      if lookAheadToken == LeftBracket {
        r := List();
      } else {
        r := Object();
      }
    }

    /** `list`: '[', one value, then the rest of the list. */
    method List() returns (r: Result<Value>)
      requires Ready()
      modifies this
      ensures Ready()
      ensures Agrees(ParseList(stream, old(Pos())), r)
      decreases Rem(stream, Pos()), 1
    {
      var objects: seq<Value> := [];
      :- Match(LeftBracket);
      var item :- EntryValue();
      objects := objects + [item];
      assert objects == [item];
      objects :- RestOfList(objects);
      return Ok(VList(objects));
    }

    /**
     * `restOfList`: on a comma, append the value after it to `objects` and
     * carry on; otherwise require ']'.
     */
    method RestOfList(objects: seq<Value>) returns (r: Result<seq<Value>>)
      requires Ready()
      modifies this
      ensures Ready()
      ensures Agrees(Extend(objects, ParseRest(stream, old(Pos()))), r)
      decreases Rem(stream, Pos()), 0
    {
      ghost var start := Pos();
      var comma := TryMatch(Comma);
      if comma.Matched? {
        var item :- EntryValue();
        RestAdvance(stream, start, objects, Parsed(item, Pos()));
        r := RestOfList(objects + [item]);
        return;
      }
      :- Match(RightBracket);
      assert objects + [] == objects;
      return Ok(objects);
    }

    /** `entryValue`: a string token with its quotes stripped, else an object on '{', else a list. */
    method EntryValue() returns (r: Result<Value>)
      requires Ready()
      modifies this
      ensures Ready()
      ensures Agrees(ParseValue(stream, old(Pos())), r)
      decreases Rem(stream, Pos()), 2
    {
      ghost var start := Pos();
      var result := TryMatch(StringLit);
      if result.Matched? {
        StringTextLong(stream, start);
        var text := result.text;
        return Ok(VStr(Strip(text)));
      }
      if lookAheadToken == LeftCurly {
        r := Object();
        return;
      }
      r := List();
    }

    /** `object`: '{', the entries put into a new map, '}'. */
    method Object() returns (r: Result<Value>)
      requires Ready()
      modifies this
      ensures Ready()
      ensures Agrees(ParseObject(stream, old(Pos())), r)
      decreases Rem(stream, Pos()), 1
    {
      var leftCurly := Match(LeftCurly);
      if leftCurly.Fail? {
        return Err(leftCurly.error);
      }
      var objectMap: map<string, Value> := map[];
      objectMap :- Entries(objectMap);
      :- Match(RightCurly);
      return Ok(VMap(objectMap));
    }

    /** `entries`: when the lookahead is a string token, one entry and then the further ones, put into `objectMap`. */
    method Entries(objectMap: map<string, Value>) returns (r: Result<map<string, Value>>)
      requires Ready()
      modifies this
      ensures Ready()
      ensures Agrees(Into(objectMap, ParseEntries(stream, old(Pos()))), r)
      decreases Rem(stream, Pos()), 2
    {
      if lookAheadToken == StringLit {
        ghost var start := Pos();
        var withFirst :- Entry(objectMap);
        EntriesAdvance(stream, start, objectMap);
        r := MoreEntries(withFirst);
        return;
      }
      return Ok(objectMap);
    }

    /** `moreEntries`: on a comma, put the entry after it into `objectMap` and carry on. */
    method MoreEntries(objectMap: map<string, Value>) returns (r: Result<map<string, Value>>)
      requires Ready()
      modifies this
      ensures Ready()
      ensures Agrees(Into(objectMap, ParseMoreEntries(stream, old(Pos()))), r)
      decreases Rem(stream, Pos()), 0
    {
      ghost var start := Pos();
      var comma := TryMatch(Comma);
      if comma.NoMatch? {
        return Ok(objectMap);
      }
      var withEntry :- Entry(objectMap);
      MoreEntriesAdvance(stream, start, objectMap);
      r := MoreEntries(withEntry);
    }

    /** `entry`: a string key with its quotes stripped, ':', a value; put key and value into `objectMap`. */
    method Entry(objectMap: map<string, Value>) returns (r: Result<map<string, Value>>)
      requires Ready()
      modifies this
      ensures Ready()
      ensures Agrees(Into(objectMap, Single(ParseEntry(stream, old(Pos())))), r)
      decreases Rem(stream, Pos()), 1
    {
      ghost var start := Pos();
      var entry :- GetMatch(StringLit);
      StringTextLong(stream, start);
      var entryString := Strip(entry);
      :- Match(Colon);
      var value :- EntryValue();
      PutCons(objectMap, (entryString, value), []);
      assert [(entryString, value)] + [] == [(entryString, value)];
      return Ok(objectMap[entryString := value]);
    }
  }
}

=== FILE: roundtrip.dfy ===
/**
 * The parser against the grammar it documents: writing a tree out as its
 * token sequence (quoted strings, brackets, colons, commas) and parsing those
 * tokens gives the tree back as a parsed value; anything after the complete
 * value is rejected. A tree here is the printer's Node, so the same tree can
 * be parsed and printed.
 */
module RoundTrip {
  import opened Lexing
  import opened Grammar
  import opened Extractor

  /** A token kind with its text, as written out. */
  datatype Tok = Tok(kind: Token, text: string)

  function Quote(s: string): (r: string)
    ensures |r| == |s| + 2
  {
    "\"" + s + "\""
  }

  lemma StripQuote(s: string)
    ensures Strip(Quote(s)) == s
  {
    assert Quote(s)[1..|Quote(s)| - 1] == s;
  }

  /** The tokens of a tree, the way the grammar spells it. */
  function Emit(n: Node): (r: seq<Tok>)
    ensures r != []
    decreases n, 2
  {
    match n
    case Leaf(s) => [Tok(StringLit, Quote(s))]
    case Items(es) =>
      if es == [] then [Tok(LeftBracket, "[")] + EmitRest([])
      else [Tok(LeftBracket, "[")] + (Emit(es[0]) + EmitRest(es[1..]))
    case Dict(ms) => [Tok(LeftCurly, "{")] + (EmitEntries(ms) + [Tok(RightCurly, "}")])
  }

  /** The list elements after the first, each after a comma, then ']'. */
  function EmitRest(es: seq<Node>): (r: seq<Tok>)
    ensures r != []
    decreases es
  {
    if es == [] then [Tok(RightBracket, "]")] else [Tok(Comma, ",")] + (Emit(es[0]) + EmitRest(es[1..]))
  }

  /** The quoted key, ':', the value. */
  function EmitEntry(m: Member): seq<Tok>
    decreases m
  {
    [Tok(StringLit, Quote(m.key))] + ([Tok(Colon, ":")] + Emit(m.value))
  }

  /** The entries of a map, separated by commas. */
  function EmitEntries(ms: seq<Member>): seq<Tok>
    decreases ms, 1
  {
    if ms == [] then [] else EmitEntry(ms[0]) + EmitMore(ms[1..])
  }

  /** The map entries after the first, each after a comma. */
  function EmitMore(ms: seq<Member>): seq<Tok>
    decreases ms, 0
  {
    if ms == [] then [] else [Tok(Comma, ",")] + (EmitEntry(ms[0]) + EmitMore(ms[1..]))
  }

  /** Every list in the tree is non-empty, as the grammar requires. */
  ghost predicate Proper(n: Node)
    decreases n, 1
  {
    match n
    case Leaf(_) => true
    case Items(es) => es != [] && ProperAll(es)
    case Dict(ms) => ProperMembers(ms)
  }

  ghost predicate ProperAll(es: seq<Node>)
    decreases es
  {
    es == [] || (Proper(es[0]) && ProperAll(es[1..]))
  }

  ghost predicate ProperMembers(ms: seq<Member>)
    decreases ms
  {
    ms == [] || (Proper(ms[0].value) && ProperMembers(ms[1..]))
  }

  /** The value a tree parses to: its maps built by putting the entries in order. */
  function ToValue(n: Node): Value
    decreases n, 1
  {
    match n
    case Leaf(s) => VStr(s)
    case Items(es) => VList(ToValues(es))
    case Dict(ms) => VMap(Put(map[], ToPairs(ms)))
  }

  function ToValues(es: seq<Node>): (r: seq<Value>)
    ensures |r| == |es|
    decreases es
  {
    if es == [] then [] else [ToValue(es[0])] + ToValues(es[1..])
  }

  function ToPairs(ms: seq<Member>): (r: seq<(string, Value)>)
    ensures |r| == |ms|
    decreases ms
  {
    if ms == [] then [] else [(ms[0].key, ToValue(ms[0].value))] + ToPairs(ms[1..])
  }

  /** The lexemes from index p on have the kinds and texts of the tokens. */
  ghost predicate Spells(ts: TokenStream, p: nat, toks: seq<Tok>)
    decreases toks
  {
    toks == [] ||
      (p < |ts.lexemes| && ts.lexemes[p].kind == toks[0].kind && ts.lexemes[p].text == toks[0].text
       && Spells(ts, p + 1, toks[1..]))
  }

  lemma {:induction false} SpellsSplit(ts: TokenStream, p: nat, a: seq<Tok>, b: seq<Tok>)
    requires Spells(ts, p, a + b)
    ensures Spells(ts, p, a) && Spells(ts, p + |a|, b)
    decreases a
  {
    if a == [] {
      assert a + b == b;
    } else {
      assert (a + b)[0] == a[0];
      assert (a + b)[1..] == a[1..] + b;
      SpellsSplit(ts, p + 1, a[1..], b);
    }
  }

  /** The first lexeme spelled. */
  lemma SpellsFirst(ts: TokenStream, p: nat, toks: seq<Tok>)
    requires Spells(ts, p, toks) && toks != []
    ensures ts.At(p).kind == toks[0].kind && ts.At(p).text == toks[0].text
  {
  }

  /** A spelled token followed by two spelled pieces. */
  lemma SpellsOpening(ts: TokenStream, p: nat, t: Tok, a: seq<Tok>, b: seq<Tok>)
    requires Spells(ts, p, [t] + (a + b))
    ensures ts.At(p).kind == t.kind && Spells(ts, p + 1, a) && Spells(ts, p + 1 + |a|, b)
    ensures |[t] + (a + b)| == 1 + |a| + |b|
  {
    SpellsSplit(ts, p, [t], a + b);
    SpellsSplit(ts, p + 1, a, b);
  }

  /* One step of each production, as used by the round-trip proofs below. */

  lemma ListStep(ts: TokenStream, p: nat, first: Parsed<Value>, rest: Parsed<seq<Value>>)
    requires WellFormed(ts) && ts.At(p).kind == LeftBracket
    requires ParseValue(ts, p + 1) == Ok(first) && ParseRest(ts, first.next) == Ok(rest)
    ensures ParseList(ts, p) == Ok(Parsed(VList([first.value] + rest.value), rest.next))
  {
  }

  lemma RestStep(ts: TokenStream, p: nat, element: Parsed<Value>, rest: Parsed<seq<Value>>)
    requires WellFormed(ts) && ts.At(p).kind == Comma
    requires ParseValue(ts, p + 1) == Ok(element) && ParseRest(ts, element.next) == Ok(rest)
    ensures ParseRest(ts, p) == Ok(Parsed([element.value] + rest.value, rest.next))
  {
  }

  lemma ObjectStep(ts: TokenStream, p: nat, entries: Parsed<seq<(string, Value)>>)
    requires WellFormed(ts) && ts.At(p).kind == LeftCurly
    requires ParseEntries(ts, p + 1) == Ok(entries) && ts.At(entries.next).kind == RightCurly
    ensures ParseObject(ts, p) == Ok(Parsed(VMap(Put(map[], entries.value)), entries.next + 1))
  {
  }

  lemma EntriesStep(ts: TokenStream, p: nat, first: Parsed<(string, Value)>, more: Parsed<seq<(string, Value)>>)
    requires WellFormed(ts) && ts.At(p).kind == StringLit
    requires ParseEntry(ts, p) == Ok(first) && ParseMoreEntries(ts, first.next) == Ok(more)
    ensures ParseEntries(ts, p) == Ok(Parsed([first.value] + more.value, more.next))
  {
  }

  lemma MoreEntriesStep(ts: TokenStream, p: nat, entry: Parsed<(string, Value)>, more: Parsed<seq<(string, Value)>>)
    requires WellFormed(ts) && ts.At(p).kind == Comma
    requires ParseEntry(ts, p + 1) == Ok(entry) && ParseMoreEntries(ts, entry.next) == Ok(more)
    ensures ParseMoreEntries(ts, p) == Ok(Parsed([entry.value] + more.value, more.next))
  {
  }

  lemma EntryStep(ts: TokenStream, p: nat, value: Parsed<Value>)
    requires WellFormed(ts) && ts.At(p).kind == StringLit && ts.At(p + 1).kind == Colon
    requires |ts.At(p).text| >= 2 && ParseValue(ts, p + 2) == Ok(value)
    ensures ParseEntry(ts, p) == Ok(Parsed((Strip(ts.At(p).text), value.value), value.next))
  {
  }

  /** Parsing a written-out tree gives its value and stops right after its last token. */
  lemma {:induction false} ValueRoundTrip(ts: TokenStream, p: nat, n: Node)
    requires WellFormed(ts) && Proper(n) && Spells(ts, p, Emit(n))
    ensures ParseValue(ts, p) == Ok(Parsed(ToValue(n), p + |Emit(n)|))
    decreases n, 3
  {
    match n
    case Leaf(s) =>
      SpellsFirst(ts, p, Emit(n));
      StripQuote(s);
    case Items(es) =>
      ListRoundTrip(ts, p, n);
    case Dict(ms) =>
      ObjectRoundTrip(ts, p, n);
  }

  lemma {:induction false} ListRoundTrip(ts: TokenStream, p: nat, n: Node)
    requires WellFormed(ts) && n.Items? && Proper(n) && Spells(ts, p, Emit(n))
    ensures ParseList(ts, p) == Ok(Parsed(ToValue(n), p + |Emit(n)|))
    decreases n, 2
  {
    var es := n.elements;
    SpellsOpening(ts, p, Tok(LeftBracket, "["), Emit(es[0]), EmitRest(es[1..]));
    ListCons(ts, p, es, p + |Emit(n)|);
  }

  /** '[', the first element, and the rest after it, ending just before e. */
  lemma {:induction false} ListCons(ts: TokenStream, p: nat, es: seq<Node>, e: nat)
    requires WellFormed(ts) && es != [] && ProperAll(es) && ts.At(p).kind == LeftBracket
    requires Spells(ts, p + 1, Emit(es[0])) && Spells(ts, p + 1 + |Emit(es[0])|, EmitRest(es[1..]))
    requires e == p + 1 + |Emit(es[0])| + |EmitRest(es[1..])|
    ensures ParseList(ts, p) == Ok(Parsed(VList(ToValues(es)), e))
    decreases es, 2
  {
    var after := p + 1 + |Emit(es[0])|;
    ValueRoundTrip(ts, p + 1, es[0]);
    RestRoundTrip(ts, after, es[1..], e);
    ListStep(ts, p, Parsed(ToValue(es[0]), after), Parsed(ToValues(es[1..]), e));
  }

  /** The list elements after the first, and the ']': they parse to their values and stop just before e. */
  lemma {:induction false} RestRoundTrip(ts: TokenStream, q: nat, es: seq<Node>, e: nat)
    requires WellFormed(ts) && ProperAll(es) && Spells(ts, q, EmitRest(es))
    requires e == q + |EmitRest(es)|
    ensures ParseRest(ts, q) == Ok(Parsed(ToValues(es), e))
    decreases es, 1
  {
    if es == [] {
      SpellsFirst(ts, q, EmitRest(es));
    } else {
      SpellsOpening(ts, q, Tok(Comma, ","), Emit(es[0]), EmitRest(es[1..]));
      RestCons(ts, q, es, e);
    }
  }

  /** A comma, the first element, and the rest after it. */
  lemma {:induction false} RestCons(ts: TokenStream, q: nat, es: seq<Node>, e: nat)
    requires WellFormed(ts) && es != [] && ProperAll(es) && ts.At(q).kind == Comma
    requires Spells(ts, q + 1, Emit(es[0])) && Spells(ts, q + 1 + |Emit(es[0])|, EmitRest(es[1..]))
    requires e == q + 1 + |Emit(es[0])| + |EmitRest(es[1..])|
    ensures ParseRest(ts, q) == Ok(Parsed(ToValues(es), e))
    decreases es, 0
  {
    var after := q + 1 + |Emit(es[0])|;
    ValueRoundTrip(ts, q + 1, es[0]);
    RestRoundTrip(ts, after, es[1..], e);
    RestStep(ts, q, Parsed(ToValue(es[0]), after), Parsed(ToValues(es[1..]), e));
  }

  lemma {:induction false} ObjectRoundTrip(ts: TokenStream, p: nat, n: Node)
    requires WellFormed(ts) && n.Dict? && Proper(n) && Spells(ts, p, Emit(n))
    ensures ParseObject(ts, p) == Ok(Parsed(ToValue(n), p + |Emit(n)|))
    decreases n, 2
  {
    var entries := EmitEntries(n.entries);
    var close := p + 1 + |entries|;
    SpellsOpening(ts, p, Tok(LeftCurly, "{"), entries, [Tok(RightCurly, "}")]);
    SpellsFirst(ts, close, [Tok(RightCurly, "}")]);
    EntriesRoundTrip(ts, p + 1, n.entries, close);
    ObjectStep(ts, p, Parsed(ToPairs(n.entries), close));
  }

  /** The entries of a written-out map, followed by its '}' at e: they parse to its pairs in order and stop at e. */
  lemma {:induction false} EntriesRoundTrip(ts: TokenStream, q: nat, ms: seq<Member>, e: nat)
    requires WellFormed(ts) && ProperMembers(ms) && Spells(ts, q, EmitEntries(ms))
    requires e == q + |EmitEntries(ms)| && ts.At(e).kind == RightCurly
    ensures ParseEntries(ts, q) == Ok(Parsed(ToPairs(ms), e))
    decreases ms, 1
  {
    if ms != [] {
      var after := q + |EmitEntry(ms[0])|;
      SpellsSplit(ts, q, EmitEntry(ms[0]), EmitMore(ms[1..]));
      EntryRoundTrip(ts, q, ms[0]);
      MoreRoundTrip(ts, after, ms[1..], e);
      EntriesStep(ts, q, Parsed((ms[0].key, ToValue(ms[0].value)), after), Parsed(ToPairs(ms[1..]), e));
    }
  }

  /** The further entries of a written-out map, each after a comma, followed by its '}' at e. */
  lemma {:induction false} MoreRoundTrip(ts: TokenStream, q: nat, ms: seq<Member>, e: nat)
    requires WellFormed(ts) && ProperMembers(ms) && Spells(ts, q, EmitMore(ms))
    requires e == q + |EmitMore(ms)| && ts.At(e).kind == RightCurly
    ensures ParseMoreEntries(ts, q) == Ok(Parsed(ToPairs(ms), e))
    decreases ms, 1
  {
    if ms != [] {
      SpellsOpening(ts, q, Tok(Comma, ","), EmitEntry(ms[0]), EmitMore(ms[1..]));
      MoreCons(ts, q, ms, e);
    }
  }

  /** A comma, an entry, and the further entries after it. */
  lemma {:induction false} MoreCons(ts: TokenStream, q: nat, ms: seq<Member>, e: nat)
    requires WellFormed(ts) && ms != [] && ProperMembers(ms) && ts.At(q).kind == Comma
    requires Spells(ts, q + 1, EmitEntry(ms[0])) && Spells(ts, q + 1 + |EmitEntry(ms[0])|, EmitMore(ms[1..]))
    requires e == q + 1 + |EmitEntry(ms[0])| + |EmitMore(ms[1..])| && ts.At(e).kind == RightCurly
    ensures ParseMoreEntries(ts, q) == Ok(Parsed(ToPairs(ms), e))
    decreases ms, 0
  {
    var after := q + 1 + |EmitEntry(ms[0])|;
    EntryRoundTrip(ts, q + 1, ms[0]);
    MoreRoundTrip(ts, after, ms[1..], e);
    MoreEntriesStep(ts, q, Parsed((ms[0].key, ToValue(ms[0].value)), after), Parsed(ToPairs(ms[1..]), e));
  }

  /** A written-out entry: the quoted key, ':', the value. */
  lemma {:induction false} EntryRoundTrip(ts: TokenStream, q: nat, m: Member)
    requires WellFormed(ts) && Proper(m.value) && Spells(ts, q, EmitEntry(m))
    ensures ParseEntry(ts, q) == Ok(Parsed((m.key, ToValue(m.value)), q + |EmitEntry(m)|))
    ensures ts.At(q).kind == StringLit
    decreases m
  {
    var key := [Tok(StringLit, Quote(m.key))];
    var colon := [Tok(Colon, ":")];
    SpellsSplit(ts, q, key, colon + Emit(m.value));
    SpellsSplit(ts, q + 1, colon, Emit(m.value));
    SpellsFirst(ts, q, key);
    SpellsFirst(ts, q + 1, colon);
    ValueRoundTrip(ts, q + 2, m.value);
    StripQuote(m.key);
    EntryStep(ts, q, Parsed(ToValue(m.value), q + 2 + |Emit(m.value)|));
  }

  /** The i-th pair is the i-th entry's key with its value. */
  lemma {:induction false} ToPairsAt(ms: seq<Member>, i: nat)
    requires i < |ms|
    ensures ToPairs(ms)[i] == (ms[i].key, ToValue(ms[i].value))
    decreases ms
  {
    if i > 0 {
      ToPairsAt(ms[1..], i - 1);
    }
  }

  /** The keys a written-out map parses to are exactly the keys it writes. */
  lemma ObjectKeys(ms: seq<Member>)
    ensures ToValue(Dict(ms)).members.Keys == set i | 0 <= i < |ms| :: ms[i].key
  {
    var pairs := ToPairs(ms);
    PutKeys(map[], pairs);
    forall i | 0 <= i < |ms| ensures pairs[i].0 == ms[i].key {
      ToPairsAt(ms, i);
    }
    assert KeysOf(pairs) == set i | 0 <= i < |ms| :: ms[i].key;
  }

  /** A key written twice takes the value of its last occurrence. */
  lemma ObjectLastWins(ms: seq<Member>, i: nat)
    requires i < |ms|
    requires forall j :: i < j < |ms| ==> ms[j].key != ms[i].key
    ensures ms[i].key in ToValue(Dict(ms)).members
    ensures ToValue(Dict(ms)).members[ms[i].key] == ToValue(ms[i].value)
  {
    var pairs := ToPairs(ms);
    forall j | 0 <= j < |ms| ensures pairs[j].0 == ms[j].key {
      ToPairsAt(ms, j);
    }
    ToPairsAt(ms, i);
    PutLastWins(map[], pairs, i);
  }

  /** A whole document: a written-out list or map and nothing after it parses to its value. */
  lemma DocumentRoundTrip(ts: TokenStream, n: Node)
    requires WellFormed(ts) && !n.Leaf? && Proper(n)
    requires Spells(ts, 0, Emit(n)) && |ts.lexemes| == |Emit(n)|
    ensures ParseDocument(ts) == Ok(ToValue(n))
  {
    StartRoundTrip(ts, n);
  }

  /** A document with more lexemes after its list or map fails at the first of them, expecting the end. */
  lemma TrailingInputRejected(ts: TokenStream, n: Node)
    requires WellFormed(ts) && !n.Leaf? && Proper(n) && Spells(ts, 0, Emit(n))
    requires |Emit(n)| < |ts.lexemes|
    ensures ParseDocument(ts) == Err(Expect("EOF", ts.lexemes[|Emit(n)|]))
  {
    ScannedAt(ts, |Emit(n)|);
    StartRoundTrip(ts, n);
  }

  /** The start production on a written-out list or map. */
  lemma StartRoundTrip(ts: TokenStream, n: Node)
    requires WellFormed(ts) && !n.Leaf? && Proper(n) && Spells(ts, 0, Emit(n))
    ensures ParseStart(ts, 0) == Ok(Parsed(ToValue(n), |Emit(n)|))
  {
    SpellsFirst(ts, 0, Emit(n));
    if n.Items? {
      ListRoundTrip(ts, 0, n);
    } else {
      ObjectRoundTrip(ts, 0, n);
    }
  }

  /** A document must start with a list or a map: a lone string fails, expecting '{'. */
  lemma ScalarDocumentRejected(ts: TokenStream)
    requires WellFormed(ts) && ts.At(0).kind == StringLit
    ensures ParseDocument(ts) == Err(Expect("{", ts.At(0)))
  {
  }

  /* The converse: whatever the parser accepts is a written-out tree. */

  /** A string token's text is the quoted form of its stripped text. */
  lemma QuoteStrip(text: string)
    requires |text| >= 2 && text[0] == '"' && text[|text| - 1] == '"'
    ensures Quote(Strip(text)) == text
  {
    assert Quote(Strip(text)) == [text[0]] + text[1..|text| - 1] + [text[|text| - 1]];
  }

  /** A spelled token in front of a spelled sequence. */
  lemma SpellsPrefix(ts: TokenStream, p: nat, t: Tok, toks: seq<Tok>)
    requires p < |ts.lexemes| && ts.lexemes[p].kind == t.kind && ts.lexemes[p].text == t.text
    requires Spells(ts, p + 1, toks)
    ensures Spells(ts, p, [t] + toks)
  {
    assert ([t] + toks)[1..] == toks;
  }

  /** Two spelled pieces, the second starting at index mid, right after the first. */
  lemma {:induction false} SpellsJoin(ts: TokenStream, p: nat, a: seq<Tok>, mid: nat, b: seq<Tok>)
    requires mid == p + |a| && Spells(ts, p, a) && Spells(ts, mid, b)
    ensures Spells(ts, p, a + b)
    decreases a
  {
    if a == [] {
      assert a + b == b;
    } else {
      SpellsJoin(ts, p + 1, a[1..], mid, b);
      assert (a + b)[1..] == a[1..] + b;
    }
  }

  /** An accepted value is the written-out form of a tree that has that value. */
  lemma {:induction false} ValueAccepted(ts: TokenStream, p: nat) returns (n: Node)
    requires WellFormed(ts) && ParseValue(ts, p).Ok?
    ensures Proper(n) && Spells(ts, p, Emit(n))
    ensures ParseValue(ts, p).value == Parsed(ToValue(n), p + |Emit(n)|)
    decreases Rem(ts, p), 2
  {
    if ts.At(p).kind == StringLit {
      ScannedAt(ts, p);
      var text := ts.At(p).text;
      QuoteStrip(text);
      n := Leaf(Strip(text));
      SpellsPrefix(ts, p, Tok(StringLit, text), []);
    } else if ts.At(p).kind == LeftCurly {
      n := ObjectAccepted(ts, p);
    } else {
      n := ListAccepted(ts, p);
    }
  }

  /** An accepted list: '[', a written-out first element, the written-out rest. */
  lemma {:induction false} ListAccepted(ts: TokenStream, p: nat) returns (n: Node)
    requires WellFormed(ts) && ParseList(ts, p).Ok?
    ensures n.Items? && Proper(n) && Spells(ts, p, Emit(n))
    ensures ParseList(ts, p).value == Parsed(ToValue(n), p + |Emit(n)|)
    ensures |ParseList(ts, p).value.value.elements| == |n.elements|
    decreases Rem(ts, p), 1
  {
    ScannedAt(ts, p);
    var first := ParseValue(ts, p + 1).value;
    var head := ValueAccepted(ts, p + 1);
    var tail := RestAccepted(ts, first.next);
    n := Items([head] + tail);
    assert n.elements[0] == head && n.elements[1..] == tail;
    SpellsJoin(ts, p + 1, Emit(head), first.next, EmitRest(tail));
    SpellsPrefix(ts, p, Tok(LeftBracket, "["), Emit(head) + EmitRest(tail));
  }

  /** An accepted rest of a list: written-out elements, each after a comma, then ']'. */
  lemma {:induction false} RestAccepted(ts: TokenStream, q: nat) returns (es: seq<Node>)
    requires WellFormed(ts) && ParseRest(ts, q).Ok?
    ensures ProperAll(es) && Spells(ts, q, EmitRest(es))
    ensures ParseRest(ts, q).value == Parsed(ToValues(es), q + |EmitRest(es)|)
    decreases Rem(ts, q), 0
  {
    ScannedAt(ts, q);
    if ts.At(q).kind == Comma {
      var element := ParseValue(ts, q + 1).value;
      var head := ValueAccepted(ts, q + 1);
      var tail := RestAccepted(ts, element.next);
      es := [head] + tail;
      assert es[0] == head && es[1..] == tail;
      SpellsJoin(ts, q + 1, Emit(head), element.next, EmitRest(tail));
      SpellsPrefix(ts, q, Tok(Comma, ","), Emit(head) + EmitRest(tail));
    } else {
      es := [];
      SpellsPrefix(ts, q, Tok(RightBracket, "]"), []);
    }
  }

  /** An accepted map: '{', written-out entries, '}'. */
  lemma {:induction false} ObjectAccepted(ts: TokenStream, p: nat) returns (n: Node)
    requires WellFormed(ts) && ParseObject(ts, p).Ok?
    ensures n.Dict? && Proper(n) && Spells(ts, p, Emit(n))
    ensures ParseObject(ts, p).value == Parsed(ToValue(n), p + |Emit(n)|)
    decreases Rem(ts, p), 1
  {
    ScannedAt(ts, p);
    var entries := ParseEntries(ts, p + 1).value;
    var ms := EntriesAccepted(ts, p + 1);
    n := Dict(ms);
    ScannedAt(ts, entries.next);
    SpellsPrefix(ts, entries.next, Tok(RightCurly, "}"), []);
    SpellsJoin(ts, p + 1, EmitEntries(ms), entries.next, [Tok(RightCurly, "}")]);
    SpellsPrefix(ts, p, Tok(LeftCurly, "{"), EmitEntries(ms) + [Tok(RightCurly, "}")]);
  }

  /** Accepted entries: written-out entries separated by commas, possibly none. */
  lemma {:induction false} EntriesAccepted(ts: TokenStream, q: nat) returns (ms: seq<Member>)
    requires WellFormed(ts) && ParseEntries(ts, q).Ok?
    ensures ProperMembers(ms) && Spells(ts, q, EmitEntries(ms))
    ensures ParseEntries(ts, q).value == Parsed(ToPairs(ms), q + |EmitEntries(ms)|)
    decreases Rem(ts, q), 2
  {
    if ts.At(q).kind == StringLit {
      var first := ParseEntry(ts, q).value;
      var m := EntryAccepted(ts, q);
      var more := MoreAccepted(ts, first.next);
      ms := [m] + more;
      assert ms[0] == m && ms[1..] == more;
      SpellsJoin(ts, q, EmitEntry(m), first.next, EmitMore(more));
    } else {
      ms := [];
    }
  }

  /** Accepted further entries: written-out entries, each after a comma. */
  lemma {:induction false} MoreAccepted(ts: TokenStream, q: nat) returns (ms: seq<Member>)
    requires WellFormed(ts) && ParseMoreEntries(ts, q).Ok?
    ensures ProperMembers(ms) && Spells(ts, q, EmitMore(ms))
    ensures ParseMoreEntries(ts, q).value == Parsed(ToPairs(ms), q + |EmitMore(ms)|)
    decreases Rem(ts, q), 0
  {
    if ts.At(q).kind == Comma {
      ScannedAt(ts, q);
      var entry := ParseEntry(ts, q + 1).value;
      var m := EntryAccepted(ts, q + 1);
      var more := MoreAccepted(ts, entry.next);
      ms := [m] + more;
      assert ms[0] == m && ms[1..] == more;
      SpellsJoin(ts, q + 1, EmitEntry(m), entry.next, EmitMore(more));
      SpellsPrefix(ts, q, Tok(Comma, ","), EmitEntry(m) + EmitMore(more));
    } else {
      ms := [];
    }
  }

  /** An accepted entry: a quoted key, ':', a written-out value. */
  lemma {:induction false} EntryAccepted(ts: TokenStream, q: nat) returns (m: Member)
    requires WellFormed(ts) && ParseEntry(ts, q).Ok?
    ensures Proper(m.value) && Spells(ts, q, EmitEntry(m))
    ensures ParseEntry(ts, q).value == Parsed((m.key, ToValue(m.value)), q + |EmitEntry(m)|)
    decreases Rem(ts, q), 1
  {
    ScannedAt(ts, q);
    ScannedAt(ts, q + 1);
    var text := ts.At(q).text;
    QuoteStrip(text);
    var v := ValueAccepted(ts, q + 2);
    m := Member(Strip(text), v);
    SpellsPrefix(ts, q + 1, Tok(Colon, ":"), Emit(v));
    SpellsPrefix(ts, q, Tok(StringLit, text), [Tok(Colon, ":")] + Emit(v));
  }

  /**
   * An accepted document is exactly the written-out form of a list or map
   * and nothing more, and its value is that tree's value.
   */
  lemma DocumentAccepted(ts: TokenStream) returns (n: Node)
    requires WellFormed(ts) && ParseDocument(ts).Ok?
    ensures !n.Leaf? && Proper(n) && Spells(ts, 0, Emit(n)) && |ts.lexemes| == |Emit(n)|
    ensures ParseDocument(ts) == Ok(ToValue(n))
  {
    if ts.At(0).kind == LeftBracket {
      n := ListAccepted(ts, 0);
    } else {
      n := ObjectAccepted(ts, 0);
    }
    ScannedAt(ts, |Emit(n)|);
  }
}
